=== FILE: README.md ===
# Shopify lead engine — a Dafny model of the lead-qualification pipeline

This project models the core of the shopify-lead-engine. The engine finds candidate
Shopify stores for a niche through search-engine result pages, and it renders each store
in a shared headless-browser session. It then works on each store's markup:

- it decides whether the store runs on Shopify;
- it extracts contact signals (email, contact page, Instagram link);
- it extracts content for copy analysis (title, description, headings, product blurbs, body text).

Three completions then score each store: niche classification, copy-quality scoring and an
outreach hook. A dashboard runs the whole batch against the HTTP endpoints. It keeps the
leads in the target niches and offers status updates, filtering, statistics and CSV export
over the lead list.

Everything the engine does not compute itself is a parameter of the model, so the
properties hold for every behaviour of those collaborators:

- the URL parser, `new URL(href, base)`, the email regular expression, `parseFloat` and
  number display (`Host.Platform`);
- the search engine's result links per query;
- the completion replies (`AiAnalyzer.Completions`);
- the browser's launch, context, page and navigation steps (`Browser.BrowserEnv`);
- the endpoint replies seen by the dashboard (`Dashboard.Backend`).

A failed call is `None` or `Thrown`.

Modules follow the source files:

| module | file |
|---|---|
| `Discovery`, `Detector`, `Extractor` | the scraper utilities |
| `AiAnalyzer` | the analyzer |
| `Browser` | the browser singleton |
| `ScrapeStore`, `SearchStores` | the two endpoints |
| `Dashboard` | the dashboard page |

`Wrappers`, `Seqs`, `Strings`, `Js` and `Host` hold the shared vocabulary: options and
thrown errors, the JavaScript string and array operations, JavaScript truthiness and
`||`, and the parsed HTML document. A field of a parsed JSON reply (`Js.Value`) is
missing, null, a boolean, a number, NaN, a string, an array or an object. Arrays and
objects are truthy, and a template literal writes them as JavaScript does.

HTML is a `Host.Document`: the raw source, the element list in document order, and the
body as text runs. Each element has its tag, its attributes, its whole text, and the text
left once its removed descendants are gone. Each element and run records whether it is,
or lies inside, a `script`, `style`, `nav`, `footer` or `header` element. Those are the
elements the content extractor removes before it reads any text.

Lengths and `substring` cuts count UTF-16 code units, as JavaScript does
(`Strings.Length`, `Strings.Truncate`).

Some behaviours of the code are easy to misread, and the model keeps them as written:

- `maxResults: null` is not replaced by the default 20. It reaches `Math.min` as 0, so the
  search finds nothing; the dashboard sends `null` whenever its number field holds no
  integer.
- The metadata generator counts toward detection confidence even when it does not mention
  Shopify.
- The contact page is the LAST resolving contact link, not the first.
- `exportToCSV` refuses only an empty lead list. When leads exist but the filter hides all
  of them, it still exports the header line.

## Model

| member | source | states |
|---|---|---|
| Discovery.ExcludedHostIff | shopify-lead-engine/backend/utils/scraper.js:56-58 | A host is excluded exactly when it includes "shopify.com" and does not end in ".myshopify.com". The three excluded domains collapse to this one test. |
| Discovery.IsValidShopifyUrl | shopify-lead-engine/backend/utils/scraper.js:52-66 | A URL is a candidate exactly when it parses, its protocol is http: or https:, and its hostname does not mention shopify.com unless it is a *.myshopify.com store. Unparsable input is rejected. |
| Discovery.CleanUrlSpec | shopify-lead-engine/backend/utils/scraper.js:71-78 | Unparsable input comes back unchanged. URLs that differ only in port, path, query or fragment clean to the same origin. Cleaning is idempotent when the parser reads an origin back faithfully. |
| Discovery.AddLinks | shopify-lead-engine/backend/utils/scraper.js:34-39 | Adding one page's accepted links keeps the set duplicate-free and only appends. Afterwards it holds exactly the old entries plus the cleaned accepted links. It is the first-seen order (`Seqs.FirstSeen`) of the old entries followed by the page's harvest, as a JavaScript Set iterates. |
| Discovery.Run | shopify-lead-engine/backend/utils/scraper.js:15-44 | The query loop issues a prefix of the templates. It issues none once the set holds maxResults entries, and stops early only when the set is full. A failing query is skipped and the rest still run. The result holds exactly the stores found by the issued queries. |
| Discovery.RunInOrder | shopify-lead-engine/backend/utils/scraper.js:15-44 | The query loop's stores are the first-seen order of the starting stores followed by every successful query's harvest, page after page. |
| Discovery.Discover | shopify-lead-engine/backend/utils/scraper.js:8-47 | At most maxResults URLs, none for maxResults <= 0, no duplicates, and at most the three templates in order. Every URL came from an issued query, and when fewer than maxResults are returned every store found is among them. The URLs are exactly the first maxResults stores in first-seen order across the issued queries' harvests, as `Array.from(stores).slice(0, maxResults)` returns them. |
| Seqs.FirstSeenSpec | shopify-lead-engine/backend/utils/scraper.js:15 | The first-seen order of a sequence holds each of its elements exactly once and nothing else. |
| Seqs.FirstSeenAppend | shopify-lead-engine/backend/utils/scraper.js:37 | Adding to a set that already dropped its repeats gives the same order as adding everything from scratch. |
| Discovery.DiscoverCount | shopify-lead-engine/backend/utils/scraper.js:15-46 | The number of URLs is the number of distinct stores found, capped at maxResults. |
| Detector.DetectShopify | shopify-lead-engine/backend/utils/scraper.js:83-107 | Confidence is the number of truthy indicators over 5, so it lies in [0, 1]. isShopify holds exactly when the generator mentions shopify case-insensitively or one of the four substring tests holds. A Shopify verdict implies confidence >= 0.2. |
| Detector.GeneratorOnlyScenarios | shopify-lead-engine/backend/utils/scraper.js:88-104 | A page whose only signal is a "Wix" generator is not Shopify but has confidence 0.2. A "Shopify" generator alone gives a Shopify verdict with confidence 0.2. |
| Extractor.FirstAllowedEmail | shopify-lead-engine/backend/utils/scraper.js:125-133 | The email is the first match that avoids example.com, domain.com and sentry.io. It is null when every match is denied, and a returned email is always a non-denied match. |
| Extractor.ContactLoop | shopify-lead-engine/backend/utils/scraper.js:136-147 | The contact page is the resolution of the last anchor that has an href, mentions "contact" in its text or href, and resolves against the base. With no such anchor the previous value stays. |
| Extractor.InstagramLoop | shopify-lead-engine/backend/utils/scraper.js:150-155 | The first link whose href includes instagram.com wins. Later ones never replace it. |
| Extractor.ExtractContactInfo | shopify-lead-engine/backend/utils/scraper.js:112-158 | The email is one of the body text's matches, the Instagram link mentions instagram.com, and a contact page is found exactly when some anchor qualifies and resolves. |
| Extractor.ContactSound | shopify-lead-engine/backend/utils/scraper.js:136-147 | The contact loop ends with a page exactly when some anchor of the list qualifies and resolves. |
| Extractor.Collect | shopify-lead-engine/backend/utils/scraper.js:178-191 | A selection loop pushes only texts of selected elements that pass the length test, pushes every such text, and keeps document order. |
| Extractor.CollectAppend | shopify-lead-engine/backend/utils/scraper.js:178-191 | Over two element lists in a row the loop pushes the first list's texts, then the second's, so a repeated text is pushed once per element. |
| Extractor.CollectOne | shopify-lead-engine/backend/utils/scraper.js:178-191 | One element contributes its text exactly once when it is selected and passes the test, and nothing otherwise. |
| Extractor.LoopsAppend | shopify-lead-engine/backend/utils/scraper.js:178-191 | The heading and product lists of two element lists in a row are the first list's followed by the second's, repeats included. |
| Extractor.LoopsOne | shopify-lead-engine/backend/utils/scraper.js:178-191 | A single element gives its trimmed text as one heading or one product text exactly when it matches the selector and the length window. |
| Extractor.Headings | shopify-lead-engine/backend/utils/scraper.js:178-183 | Every heading is the trimmed text of an h1-h3 element, read after script, style, nav, footer and header content is removed. Its length is 1 to 199 UTF-16 code units. Every such heading outside the removed elements is kept, in document order, once per element (Extractor.LoopsAppend). |
| Extractor.ProductDescriptions | shopify-lead-engine/backend/utils/scraper.js:186-191 | Every product text is the trimmed text, without removed descendants such as an embedded script, of an element whose class mentions "product". Its length is 51 to 999 UTF-16 code units. Every such text is kept, in order, once per element (Extractor.LoopsAppend). |
| Extractor.CleanText | shopify-lead-engine/backend/utils/scraper.js:194-197 | The body text is the page's words joined by single blanks, cut to the longest prefix that fits in 3000 UTF-16 code units: the next character would not fit, and the whole joined text is kept when it fits. So it has single spaces as its only whitespace and no leading space. |
| Extractor.ExtractStoreContent | shopify-lead-engine/backend/utils/scraper.js:163-202 | The description comes from the first non-removed description meta, else "". The title is the trimmed text of the title elements, with the same words and no whitespace at either end. Headings and product texts are the two loops' lists, read without removed content and within their length windows in UTF-16 code units. The body text is the cleaned text of the page, bounded and normalised. |
| Strings.TrimSpec | shopify-lead-engine/backend/utils/scraper.js:170-196 | trim returns a slice of its input surrounded only by whitespace. The slice neither starts nor ends with whitespace and keeps every visible character. |
| Strings.CollapseKeepsVisible | shopify-lead-engine/backend/utils/scraper.js:195 | Collapsing whitespace runs to one space never loses or reorders a visible character. |
| Strings.CollapseWords | shopify-lead-engine/backend/utils/scraper.js:195 | Collapsing whitespace runs keeps exactly the words of the text, the maximal runs of non-whitespace characters, in order. |
| Strings.TrimWords | shopify-lead-engine/backend/utils/scraper.js:196 | Trimming removes no word. |
| Strings.CollapseTrimJoin | shopify-lead-engine/backend/utils/scraper.js:195-196 | Collapsing whitespace and then trimming gives the words of the text joined by single blanks. |
| Strings.CollapseLength | shopify-lead-engine/backend/utils/scraper.js:195 | Collapsing whitespace never makes the text longer in UTF-16 code units. |
| Strings.Truncate | shopify-lead-engine/backend/utils/scraper.js:197 | substring(0, n) keeps the longest prefix that fits in n UTF-16 code units. The character after it does not fit, and a text that fits is kept whole. |
| Strings.TruncateBmp | shopify-lead-engine/backend/utils/scraper.js:197 | On text without characters outside the Basic Multilingual Plane, substring(0, n) is the plain slice of the first n characters. |
| Strings.LengthBounds | shopify-lead-engine/backend/utils/scraper.js:180 | A string's length is between one and two code units per character, and exactly one per character inside the Basic Multilingual Plane. |
| AiAnalyzer.ClassifyNiche | shopify-lead-engine/backend/utils/ai-analyzer.js:24-42 | A failed call gives {Other, 0, "Classification failed"}. Otherwise each falsy field takes its own default, truthy fields pass through, and every field of the result is truthy. |
| AiAnalyzer.ClassifyNicheScenarios | shopify-lead-engine/backend/utils/ai-analyzer.js:35-37 | A niche outside the four named ones passes through. A confidence of 0 becomes 0.5. |
| AiAnalyzer.ScoreStoreCopy | shopify-lead-engine/backend/utils/ai-analyzer.js:66-83 | The score is always in [1, 10]. Only a failed call gives {5, "Scoring failed"}. A NaN or zero parse gives 5, and the reason defaults to "Unable to score". |
| AiAnalyzer.ScoreScenarios | shopify-lead-engine/backend/utils/ai-analyzer.js:77-78 | Raw 15 gives 10, raw -3 gives 1, raw 0 gives 5, and a reply without fields gives {5, "Unable to score"}. An object score is NaN and gives 5, and a one-item array score is parsed as its item's text. |
| Js.ToTextScenarios | shopify-lead-engine/frontend/pages/dashboard.js:166 | A template literal writes ["a","b"] as a,b, a null item as empty, [7] as the display of 7, [] as the empty text and any object as [object Object]. Empty arrays and objects are truthy. |
| AiAnalyzer.GenerateOutreachHook | shopify-lead-engine/backend/utils/ai-analyzer.js:104-124 | Hook and offer are always truthy. Missing fields take their own defaults, and a failure gives a fallback pair that differs from the defaults. |
| AiAnalyzer.AnalyzeStore | shopify-lead-engine/backend/utils/ai-analyzer.js:130-149 | The score is always in [1, 10]. Every field is copied from its sub-result, and the hook is generated from exactly the quality result that is reported. |
| AiAnalyzer.ScoringFailureStillAnalyzes | shopify-lead-engine/backend/utils/ai-analyzer.js:80-82 | A failed scoring call still yields a full analysis, with score 5 and reason "Scoring failed". |
| Browser.Initialize | shopify-lead-engine/backend/utils/browser.js:9-22 | With a browser already set nothing happens. Otherwise a browser is launched once and, when that succeeds, a context is created. |
| Browser.ScrapePage | shopify-lead-engine/backend/utils/browser.js:24-57 | It initializes first and opens at most one page, and every page it opens is closed on both paths. It succeeds exactly when a context is there, the page opens and the navigation succeeds, and then returns the navigation result. A failed launch, context creation or page creation throws its own message, a session without context throws the null-dereference error, and a navigation failure becomes "Failed to scrape <url>: <message>". |
| Browser.Close | shopify-lead-engine/backend/utils/browser.js:59-65 | Closing clears browser and context, and does nothing when no browser was launched. |
| Browser.CloseIdempotent | shopify-lead-engine/backend/utils/browser.js:59-65 | Closing twice is closing once. |
| Browser.LaunchOnce | shopify-lead-engine/backend/utils/browser.js:9-27 | Two scrapes in a row launch the browser at most once. |
| Browser.GetBrowserScraper | shopify-lead-engine/backend/utils/browser.js:71-76 | An existing instance is returned unchanged. Otherwise exactly one fresh instance is created and kept. |
| Browser.CloseBrowserScraper | shopify-lead-engine/backend/utils/browser.js:78-83 | Afterwards no instance remains. With none it is a no-op, and an existing instance's session is closed. |
| Browser.SingletonLifecycle | shopify-lead-engine/backend/utils/browser.js:69-83 | Two gets return the same instance. After a close, the next get creates a new one. |
| ScrapeStore.Truncated | shopify-lead-engine/backend/netlify/functions/scrape-store.js:82-88 | The returned content keeps the first min(n, 10) headings and the first min(n, 3) product texts. The body text is the longest prefix that fits in 2000 UTF-16 code units: the next character would not fit, and a body that fits is kept whole. Title and description are unchanged. |
| ScrapeStore.HandleScrape | shopify-lead-engine/backend/netlify/functions/scrape-store.js:24-102 | A missing, empty or non-string url gives 400 "URL is required", and an unparsable one 400 "Invalid URL format", both before any page opens. For a valid url the answer is 500 "Scraping failed" exactly when the fetch throws, with the fetch's message, so a failed launch, context or page creation is a 500 too. A fetched page gets Scraped exactly when it is detected as Shopify, and NotShopify otherwise, without extraction. In the Scraped case confidence, contact info and truncated content come from the requested url's page. |
| ScrapeStore.FinalUrlIrrelevant | shopify-lead-engine/backend/netlify/functions/scrape-store.js:51-70 | The final URL after redirects never changes the answer: detection and link resolution use the requested url. |
| ScrapeStore.NoPageLeak | shopify-lead-engine/backend/netlify/functions/scrape-store.js:51 | After any request the shared session has closed every page it opened. |
| SearchStores.EffectiveMax | shopify-lead-engine/shopify-lead-engine/backend/netlify/functions/search-stores.js:26-44 | An absent maxResults becomes 20, null becomes 0, and any value is capped at 50. |
| SearchStores.HandleSearch | shopify-lead-engine/shopify-lead-engine/backend/netlify/functions/search-stores.js:25-66 | A missing or empty niche is rejected with 400 "Niche is required". A parsed request gets Found exactly when its niche is a non-empty string, so any such string is searched. An unreadable body gives 500 "Search failed". count equals the number of stores, at most 50, and each discovered URL is wrapped as pending in order. |
| SearchStores.UnknownNicheNotRejected | shopify-lead-engine/shopify-lead-engine/backend/netlify/functions/search-stores.js:37-40 | A niche outside the known list is only warned about and is searched like any other. |
| Dashboard.ProcessStore | shopify-lead-engine/frontend/pages/dashboard.js:67-119 | A store whose scrape fails is skipped, and so is a non-Shopify store, before analysis. A failed analysis yields nothing. Only the three target niches become leads, with the scraped contact data, the analysis fields and status "Not Contacted". |
| Dashboard.StoresOf | shopify-lead-engine/frontend/pages/dashboard.js:53-58 | The batch proceeds only on a successful search reply, with its store list. A failed request keeps its message and an error status throws. |
| Dashboard.StoreCalls | shopify-lead-engine/frontend/pages/dashboard.js:75-89 | Each store costs one scrape request, plus one analysis request only when the page is a Shopify store. |
| Dashboard.ProcessStores | shopify-lead-engine/frontend/pages/dashboard.js:61-120 | The per-store loop shows progress i+1 of n before store i and sends the scrape request, plus the analysis request for a Shopify page. Its leads are exactly those of the accepted stores, in order. It pauses once per analysis that came back, and a failing store does not stop it. |
| Dashboard.FindLeads | shopify-lead-engine/frontend/pages/dashboard.js:32-130 | Without API key or endpoint it alerts and opens the settings, before any request and with the leads untouched. A failed search leaves the leads empty and alerts. Otherwise progress reads i+1 of n at store i and n of n at the end, the leads are those of the accepted stores in order, and only analysed stores pause. |
| Dashboard.FailureIsolated | shopify-lead-engine/frontend/pages/dashboard.js:67-119 | A store that yields no lead leaves the leads of the stores before and after it exactly as they would be without it. |
| Dashboard.LeadsInStoreOrder | shopify-lead-engine/frontend/pages/dashboard.js:64-111 | The lead URLs form a subsequence of the store URLs, in processing order. |
| Dashboard.LeadsAccepted | shopify-lead-engine/frontend/pages/dashboard.js:94-107 | Every lead of a batch has a target niche and status "Not Contacted". |
| Dashboard.LeadFromShopifyPage | shopify-lead-engine/frontend/pages/dashboard.js:76-107 | When the endpoints answer as the scrape handler and the analyzer do, a store becomes a lead only if the fetched page of the requested url was detected as Shopify. The lead's email, contact page and Instagram link are those extracted from that page, and its score is in [1, 10]. |
| Dashboard.ScoringFailureStillLead | shopify-lead-engine/frontend/pages/dashboard.js:83-107 | When the analyze endpoint answers as the analyzer does, a Shopify store in a target niche whose scoring call failed still becomes a lead, with score 5 and reason "Scoring failed". |
| Dashboard.BatchScoresInRange | shopify-lead-engine/frontend/pages/dashboard.js:183-188 | When the analyze endpoint answers as the analyzer does, every lead's score and the stats panel's mean score lie in [1, 10]. The range is derived from AnalyzeStore, not assumed. |
| Dashboard.UpdateLeadStatus | shopify-lead-engine/frontend/pages/dashboard.js:132-136 | Exactly the leads with the given id take the new status. Length, order, the other leads and every other field are unchanged. |
| Dashboard.UpdateIdempotent | shopify-lead-engine/frontend/pages/dashboard.js:132-136 | Setting the same status twice equals setting it once. |
| Dashboard.UpdatesCommute | shopify-lead-engine/frontend/pages/dashboard.js:132-136 | Updates of two different ids can be applied in either order. |
| Dashboard.FilteredLeads | shopify-lead-engine/frontend/pages/dashboard.js:177-181 | The result is an order-preserving subsequence of the leads. It holds exactly the leads of the chosen niche ("all" accepts any) whose score reaches the minimum, and a NaN minimum accepts any score. |
| Dashboard.InitialFilterKeepsAll | shopify-lead-engine/frontend/pages/dashboard.js:177-181 | The initial filter (all niches, minimum 0) hides no lead with a non-negative score. |
| Dashboard.ComputeStats | shopify-lead-engine/frontend/pages/dashboard.js:183-188 | total is the number of leads, and the email and Instagram counts never exceed it. Each count equals it exactly when every lead has that contact. The mean is 0 for no leads, and otherwise the mean times the number of leads is the sum of the scores. |
| Dashboard.StatsAppend | shopify-lead-engine/frontend/pages/dashboard.js:184-187 | The total, the email count, the Instagram count and the score sum each add up over a split of the lead list. |
| Dashboard.StatsOfOne | shopify-lead-engine/frontend/pages/dashboard.js:184-187 | A single lead counts once toward each contact field it has, and its mean is its own score. With StatsAppend this fixes every count. |
| Dashboard.AverageBounds | shopify-lead-engine/frontend/pages/dashboard.js:185 | The mean score lies between any lower and upper bound of the individual scores. |
| Dashboard.Cells | shopify-lead-engine/frontend/pages/dashboard.js:150-162 | A row has one cell per header (11): url, title, niche, displayed score, email, contact page, Instagram link, hook, offer, status and timestamp, in the header's order. A missing or empty email, contact page or Instagram link becomes the empty cell, and a present one is written as is. Hook and offer are written as a template literal writes their values. |
| Dashboard.QuoteCollision | shopify-lead-engine/frontend/pages/dashboard.js:166 | With cells quoted but not escaped, the rows ["a\",\"b"] and ["a", "b"] are written as the same line. |
| Dashboard.ExportCsvAsWritten | shopify-lead-engine/frontend/pages/dashboard.js:138-167 | Nothing is produced for an empty lead list. Otherwise the output is one header line plus, for each filtered lead in order, the line of its eleven cells quoted as written. |
| Dashboard.QuoteFreeRowRoundTrip | shopify-lead-engine/frontend/pages/dashboard.js:166 | A row written as the code does decodes back to exactly its cells whenever no cell contains a double quote. Only quotes break the export. |
| Dashboard.RowRoundTrip | shopify-lead-engine/frontend/pages/dashboard.js:166 | A row written with escaped quotes decodes back to exactly its cells. |
| Dashboard.ExportCsv | shopify-lead-engine/frontend/pages/dashboard.js:138-167 | Nothing is produced for an empty lead list, even when the filter would hide every lead. Otherwise there is one header line plus one line per filtered lead, and each line decodes back to that lead's eleven cells. |

## Left out

- Real I/O is left out: the search-engine HTTP request, the completion API, the browser's navigation, and the dashboard's requests. They are oracles returning a value or a failure, and the prompt wording is not modelled.
- Timers and pauses are left out (the 2000 ms and 1000 ms pauses, `waitForTimeout`, request timeouts). `Dashboard.Run.delays` only counts the one-second pauses the batch would take.
- Concurrency is left out. The two parallel completions of `analyzeStore` are two independent calls. The check-then-await race in `initialize` is not modelled.
- Cheerio selector semantics, the email regular expression, WHATWG URL parsing and `new URL(href, base)` are uninterpreted functions (`Host.Platform`), over an element list given in document order.
- Floating-point display is left out. `toFixed(1)` of the mean score, the progress-bar percentage and number-to-string conversion are not modelled, and scores are exact reals.
- `Strings.Lower` lowers only ASCII letters; full Unicode case mapping is not modelled.
- Strings.Truncate: when `substring` cuts through a surrogate pair, JavaScript keeps a lone high surrogate as the last code unit. A Dafny `char` cannot hold half a pair, so the model drops that character. Lengths are otherwise counted in UTF-16 code units, as JavaScript counts them.
- Console logging is left out, including the warning about a niche outside the known list and the per-store error log of the dashboard. None of it changes a result.
- The dashboard's React state, JSX, `localStorage`, `alert` display, the Blob download and the file name are left out. Calling `Date.now`, building ISO timestamps and making lead ids unique are also left out: the clock readings are parameters, and id uniqueness is not claimed.
- The OPTIONS and 405 branches of both endpoints are left out, and so are their CORS headers.
- The analyze-store and generate-hook endpoints are left out: they are thin wrappers around the analyzer, which is modelled.
- The static landing page is not part of this model.
- Failures of `page.close` and `browser.close` are left out. Closing always succeeds in the model.
- A `TypeError` raised while building a prompt from malformed store content is left out. The model treats the content fields as always present.
- `maxResults` values that are not integers are left out.
- JSON serialisation of the replies is left out: the endpoints return datatypes, not text.
- An object-valued reply field (`Js.Obj`) carries no members: the pipeline only tests such a field for truthiness, writes it as "[object Object]" and parses it as NaN.
- Dashboard.FindLeads: an exception thrown while a lead record is being built (a malformed but successful scrape reply) is not modelled. The replies are well-typed datatypes, so such a reply cannot occur.
- Dashboard.ExportCsvAsWritten: the output is stated as a list of lines (`Dashboard.CsvText` joins them with newlines). A cell containing a newline therefore does not change the stated line count.

## Findings

| source | as written | input that shows it | evidently intended | confidence | as-written member | corrected member |
|---|---|---|---|---|---|---|
| shopify-lead-engine/frontend/pages/dashboard.js:166 | every cell is written as `"` + cell + `"`, so a double quote inside a cell (common in generated hooks) is not escaped | the rows ["a\",\"b"] and ["a", "b"] produce the same line `"a","b"` | RFC 4180 quoting: inner quotes doubled, so that every line reads back as its own cells | medium, not executed | Dashboard.QuoteCollision | Dashboard.RowRoundTrip |

=== FILE: ai_analyzer.dfy ===
/**
  Normalisation of language-model replies. Every completion call is an oracle that
  returns the parsed JSON reply, or `None` when the call or `JSON.parse` throws; the
  analyzer turns each into a result with per-field defaults, and every failure into a
  fixed fallback, so that no call ever throws to its caller.
 */
module AiAnalyzer {
  import opened Wrappers
  import opened Js
  import opened Host
  import opened Extractor

  /** The fields of a parsed niche-classification reply. */
  datatype NicheReply = NicheReply(niche: Value, confidence: Value, reasoning: Value)

  datatype NicheResult = NicheResult(niche: Value, confidence: Value, reasoning: Value)

  /**
    `classifyNiche`. On failure the result is `{Other, 0, "Classification failed"}`; on
    success each falsy field is replaced by its default (a confidence of 0 becomes 0.5)
    and every truthy field is passed through, so the niche is NOT checked against the
    category set and every field of a successful result is truthy.
   */
  function ClassifyNiche(reply: Option<NicheReply>): (r: NicheResult)
    ensures reply.None? ==> r == NicheResult(Str("Other"), Num(0.0), Str("Classification failed"))
    ensures reply.Some? ==> Truthy(r.niche) && Truthy(r.confidence) && Truthy(r.reasoning)
    ensures reply.Some? ==> r.niche == (if Truthy(reply.value.niche) then reply.value.niche else Str("Other"))
    ensures reply.Some? ==> r.confidence == (if Truthy(reply.value.confidence) then reply.value.confidence else Num(0.5))
    ensures reply.Some? ==> r.reasoning == (if Truthy(reply.value.reasoning) then reply.value.reasoning else Str("Unable to classify"))
  {
    match reply
    case None => NicheResult(Str("Other"), Num(0.0), Str("Classification failed"))
    case Some(res) =>
      NicheResult(Or(res.niche, Str("Other")), Or(res.confidence, Num(0.5)), Or(res.reasoning, Str("Unable to classify")))
  }

  /**
    A successful reply can carry a niche outside Fashion/Beauty/Supplements/Other and it
    is returned as is, while a zero confidence is indistinguishable from a missing one.
   */
  lemma ClassifyNicheScenarios()
    ensures ClassifyNiche(Some(NicheReply(Str("Pets"), Num(0.9), Str("dog toys")))).niche == Str("Pets")
    ensures ClassifyNiche(Some(NicheReply(Str("Beauty"), Num(0.0), Undefined)))
            == NicheResult(Str("Beauty"), Num(0.5), Str("Unable to classify"))
    ensures ClassifyNiche(Some(NicheReply(Undefined, Undefined, Undefined))).confidence == Num(0.5)
    ensures ClassifyNiche(None).confidence == Num(0.0)
  {
  }

  /** The fields of a parsed copy-scoring reply. */
  datatype ScoreReply = ScoreReply(score: Value, reason: Value)

  /** A copy-quality assessment. */
  datatype Quality = Quality(score: real, reason: Value)

  /**
    `parseFloat(v)`, which parses `String(v)`; `None` is `NaN`. A number is itself, and
    "undefined", "null", "true", "false", "NaN" and "[object Object]" never parse. A
    string, and the comma-joined text of an array, go to the host's number parser.
   */
  function ParseFloat(v: Value, p: Platform): Option<real> {
    match v
    case Num(n) => Some(n)
    case Str(s) => p.parseNumber(s)
    case Arr(_) => p.parseNumber(ToText(v, p.showNumber))
    case _ => None
  }

  /** `Math.min(10, Math.max(1, x))`. */
  function Clamp(x: real): real {
    if x > 10.0 then 10.0 else if x < 1.0 then 1.0 else x
  }

  /**
    `scoreStoreCopy`. The score is always in [1, 10]. On failure the result is
    `{5, "Scoring failed"}`. On success a raw score that parses to NaN or to 0 becomes 5
    (`|| 5`), any other raw score is clamped into [1, 10], and the reason is the reply's
    own or "Unable to score".
   */
  function ScoreStoreCopy(reply: Option<ScoreReply>, p: Platform): (r: Quality)
    ensures 1.0 <= r.score <= 10.0
    ensures reply.None? ==> r == Quality(5.0, Str("Scoring failed"))
    ensures reply.Some? ==> r.reason == (if Truthy(reply.value.reason) then reply.value.reason else Str("Unable to score"))
    ensures reply.Some? ==> var raw := ParseFloat(reply.value.score, p);
      && (raw.None? || raw.value == 0.0 ==> r.score == 5.0)
      && (raw.Some? && raw.value != 0.0 && 1.0 <= raw.value <= 10.0 ==> r.score == raw.value)
      && (raw.Some? && raw.value > 10.0 ==> r.score == 10.0)
      && (raw.Some? && raw.value != 0.0 && raw.value < 1.0 ==> r.score == 1.0)
  {
    match reply
    case None => Quality(5.0, Str("Scoring failed"))
    case Some(res) =>
      var raw := ParseFloat(res.score, p);
      var score := if raw.None? || raw.value == 0.0 then 5.0 else raw.value;
      Quality(Clamp(score), Or(res.reason, Str("Unable to score")))
  }

  /**
    Out-of-range raw scores are clamped (15 becomes 10, -3 becomes 1), and a missing
    score keeps the model's reason: only a failed call gives "Scoring failed". An object
    score is `NaN` and becomes 5, while a one-item array is parsed as its item's text.
   */
  lemma ScoreScenarios(p: Platform)
    ensures ScoreStoreCopy(Some(ScoreReply(Num(15.0), Str("vague"))), p) == Quality(10.0, Str("vague"))
    ensures ScoreStoreCopy(Some(ScoreReply(Num(-3.0), Str("weak"))), p) == Quality(1.0, Str("weak"))
    ensures ScoreStoreCopy(Some(ScoreReply(Num(0.0), Str("ok"))), p) == Quality(5.0, Str("ok"))
    ensures ScoreStoreCopy(Some(ScoreReply(Undefined, Undefined)), p) == Quality(5.0, Str("Unable to score"))
    ensures ScoreStoreCopy(Some(ScoreReply(Obj, Str("ok"))), p) == Quality(5.0, Str("ok"))
    ensures ParseFloat(Arr([Str("7")]), p) == p.parseNumber("7")
  {
  }

  /** The fields of a parsed outreach-hook reply. */
  datatype HookReply = HookReply(hook: Value, offer: Value)

  datatype Hook = Hook(hook: Value, offer: Value)

  const DefaultHook: string := "Custom copywriting could improve your conversions"
  const DefaultOffer: string := "Free product description rewrite sample"
  const FallbackHook: string := "I noticed your product copy focuses on features rather than benefits"
  const FallbackOffer: string := "Free rewrite of one product description showing conversion improvements"

  /**
    `generateOutreachHook`. Both fields are always truthy text or the reply's own values:
    a missing field gets its default, and a failed call gets a fixed fallback pair that
    differs from both defaults.
   */
  function GenerateOutreachHook(reply: Option<HookReply>): (r: Hook)
    ensures Truthy(r.hook) && Truthy(r.offer)
    ensures reply.None? ==> r == Hook(Str(FallbackHook), Str(FallbackOffer))
                            && r.hook != Str(DefaultHook) && r.offer != Str(DefaultOffer)
    ensures reply.Some? ==> r.hook == (if Truthy(reply.value.hook) then reply.value.hook else Str(DefaultHook))
    ensures reply.Some? ==> r.offer == (if Truthy(reply.value.offer) then reply.value.offer else Str(DefaultOffer))
  {
    match reply
    case None => Hook(Str(FallbackHook), Str(FallbackOffer))
    case Some(res) => Hook(Or(res.hook, Str(DefaultHook)), Or(res.offer, Str(DefaultOffer)))
  }

  /**
    The three completion calls for one store. The hook prompt is built from the quality
    assessment, so the hook oracle receives it.
   */
  datatype Completions = Completions(
    classify: StoreContent -> Option<NicheReply>,
    score: StoreContent -> Option<ScoreReply>,
    hook: (StoreContent, Quality) -> Option<HookReply>)

  datatype Analysis = Analysis(
    niche: Value,
    nicheConfidence: Value,
    nicheReasoning: Value,
    qualityScore: real,
    qualityReason: Value,
    outreachHook: Value,
    outreachOffer: Value)

  /**
    `analyzeStore`: classification and scoring (issued together), then the hook for the
    quality result. Every output field is copied from its sub-result, the hook is
    generated from exactly the quality assessment that is reported, and since the
    sub-calls absorb their own failures the reported score is always in [1, 10].
   */
  function AnalyzeStore(content: StoreContent, c: Completions, p: Platform): (r: Analysis)
    ensures 1.0 <= r.qualityScore <= 10.0
    ensures NicheResult(r.niche, r.nicheConfidence, r.nicheReasoning) == ClassifyNiche(c.classify(content))
    ensures Quality(r.qualityScore, r.qualityReason) == ScoreStoreCopy(c.score(content), p)
    ensures Hook(r.outreachHook, r.outreachOffer)
            == GenerateOutreachHook(c.hook(content, Quality(r.qualityScore, r.qualityReason)))
  {
    var nicheResult := ClassifyNiche(c.classify(content));
    var quality := ScoreStoreCopy(c.score(content), p);
    var hook := GenerateOutreachHook(c.hook(content, quality));
    Analysis(nicheResult.niche, nicheResult.confidence, nicheResult.reasoning,
             quality.score, quality.reason, hook.hook, hook.offer)
  }

  /** When the scoring call fails the analysis still completes, with score 5 and reason "Scoring failed". */
  lemma ScoringFailureStillAnalyzes(content: StoreContent, c: Completions, p: Platform)
    requires c.score(content).None?
    ensures AnalyzeStore(content, c, p).qualityScore == 5.0
    ensures AnalyzeStore(content, c, p).qualityReason == Str("Scoring failed")
  {
  }
}

=== FILE: browser.dfy ===
/**
  The headless-browser session: one lazily launched browser and context, one page per
  fetch that is closed on every exit path, an idempotent `close`, and the process-wide
  singleton that hands the session out. The counters record what was launched, opened
  and closed, so the lifecycle guarantees can be stated.
 */
module Browser {
  import opened Wrappers
  import opened Host

  /**
    A `BrowserScraper`: whether `browser` and `context` are set, and how many browser
    launches, browser closes, page opens and page closes it has performed.
   */
  datatype Session = Session(browser: bool, context: bool, launches: nat, closes: nat, pagesOpened: nat, pagesClosed: nat)

  /** `new BrowserScraper()`. */
  const Fresh: Session := Session(false, false, 0, 0, 0, 0)

  /** Between calls a context exists only with its browser, and no page is left open. */
  predicate Valid(s: Session) {
    (s.context ==> s.browser) && s.pagesClosed == s.pagesOpened
  }

  /** The outcome of one Playwright call that returns nothing of interest. */
  datatype Step = Ok | Fail(message: string)

  /**
    The outcomes of the Playwright calls one `scrapePage` can make: launching the
    browser, creating its context, opening a page, and navigating and capturing it.
   */
  datatype BrowserEnv = BrowserEnv(launch: Step, newContext: Step, newPage: Step, navigation: Result<RenderedPage>)

  /** What `this.context.newPage()` throws when the context is still `null`. */
  const NullContextError: string := "Cannot read properties of null (reading 'newPage')"

  /**
    `initialize`: launch a browser and create its context only when no browser is set,
    so a second call is a no-op. A failed launch leaves the session unchanged; a failed
    context creation leaves the browser set and the context null.
   */
  function Initialize(s: Session, env: BrowserEnv): (r: (Session, Result<()>))
    ensures s.browser ==> r == (s, Done(()))
    ensures !s.browser ==> r.0.launches == s.launches + 1 || r.0 == s
    ensures r.1.Done? ==> r.0.browser && (!s.browser ==> r.0.context)
    ensures r.0.pagesOpened == s.pagesOpened && r.0.pagesClosed == s.pagesClosed && r.0.closes == s.closes
    ensures Valid(s) && r.1.Done? && !s.browser ==> Valid(r.0)
    ensures Valid(s) ==> Valid(r.0)
  {
    if s.browser then (s, Done(()))
    else
      match env.launch
      case Fail(m) => (s, Thrown(m))
      case Ok =>
        var launched := s.(browser := true, launches := s.launches + 1);
        match env.newContext
        case Fail(m) => (launched, Thrown(m))
        case Ok => (launched.(context := true), Done(()))
  }

  /**
    Initialization leaves a context to open a page in: either the session already has
    both handles, or it has no browser and both the launch and the context creation
    succeed. A session with a browser but no context (left by a failed context
    creation) never gets one.
   */
  predicate HasContextAfterInit(s: Session, env: BrowserEnv) {
    if s.browser then s.context else env.launch.Ok? && env.newContext.Ok?
  }

  /**
    `scrapePage(url)`: initialize, open exactly one page, navigate and capture it. The
    page is closed on the success path and on the failure path, so every page opened is
    closed; a navigation failure is rethrown as "Failed to scrape <url>: <message>".
    Failures before the page exists (launch, context, page creation) propagate unwrapped,
    and a missing context throws the `null` dereference error. The fetch succeeds
    exactly when a context is there, the page opens and the navigation succeeds.
   */
  function ScrapePage(s: Session, url: string, env: BrowserEnv): (r: (Session, Result<RenderedPage>))
    ensures r.1.Done? <==> HasContextAfterInit(s, env) && env.newPage.Ok? && env.navigation.Done?
    ensures !s.browser && env.launch.Fail? ==> r.1 == Thrown(env.launch.message)
    ensures !s.browser && env.launch.Ok? && env.newContext.Fail? ==> r.1 == Thrown(env.newContext.message)
    ensures s.browser && !s.context ==> r.1 == Thrown(NullContextError)
    ensures HasContextAfterInit(s, env) && env.newPage.Fail? ==> r.1 == Thrown(env.newPage.message)
    ensures HasContextAfterInit(s, env) && env.newPage.Ok? && env.navigation.Thrown?
            ==> r.1 == Thrown("Failed to scrape " + url + ": " + env.navigation.message)
    ensures r.0.pagesOpened - s.pagesOpened == r.0.pagesClosed - s.pagesClosed
    ensures r.0.pagesOpened <= s.pagesOpened + 1
    ensures r.0.launches == s.launches + (if s.browser || env.launch.Fail? then 0 else 1)
    ensures r.0.closes == s.closes
    ensures r.1.Done? ==> env.navigation == r.1 && r.0.browser && r.0.context && r.0.pagesOpened == s.pagesOpened + 1
    ensures r.0.pagesOpened == s.pagesOpened + 1 && env.navigation.Thrown?
            ==> r.1 == Thrown("Failed to scrape " + url + ": " + env.navigation.message)
    ensures s.browser && s.context && env.newPage.Ok? ==> r.0.pagesOpened == s.pagesOpened + 1
    ensures Valid(s) ==> Valid(r.0)
  {
    var (ready, init) := Initialize(s, env);
    if init.Thrown? then (ready, Thrown(init.message))
    else if !ready.context then (ready, Thrown(NullContextError))
    else
      match env.newPage
      case Fail(m) => (ready, Thrown(m))
      case Ok =>
        var withPage := ready.(pagesOpened := ready.pagesOpened + 1);
        var closed := withPage.(pagesClosed := withPage.pagesClosed + 1);
        match env.navigation
        case Done(page) => (closed, Done(page))
        case Thrown(m) => (closed, Thrown("Failed to scrape " + url + ": " + m))
  }

  /**
    `close`: close the browser and null both handles when a browser is set, otherwise do
    nothing. Afterwards neither handle is set, and a second close changes nothing.
   */
  function Close(s: Session): (r: Session)
    ensures !s.browser ==> r == s
    ensures s.browser ==> r.closes == s.closes + 1 && !r.browser && !r.context
    ensures Valid(s) ==> Valid(r) && !r.browser && !r.context
  {
    if s.browser then s.(browser := false, context := false, closes := s.closes + 1) else s
  }

  /** Closing twice is closing once. */
  lemma CloseIdempotent(s: Session)
    ensures Close(Close(s)) == Close(s)
  {
  }

  /** A session launches at most once until it is closed: a second fetch reuses the browser. */
  lemma LaunchOnce(s: Session, u1: string, u2: string, e1: BrowserEnv, e2: BrowserEnv)
    ensures var (s1, _) := ScrapePage(s, u1, e1);
      var (s2, _) := ScrapePage(s1, u2, e2);
      s2.launches <= s.launches + 1
  {
  }

  // ---------------------------------------------------------------- singleton

  /** A scraper object; `id` tells apart the objects the singleton creates. */
  datatype Instance = Instance(id: nat, session: Session)

  /** The module-level `scraperInstance` and the number of instances created so far. */
  datatype Registry = Registry(instance: Option<Instance>, created: nat)

  const NoInstance: Registry := Registry(None, 0)

  /** Every instance ever handed out has an id below `created`. */
  predicate RegistryValid(reg: Registry) {
    reg.instance.Some? ==> reg.instance.value.id < reg.created && Valid(reg.instance.value.session)
  }

  /**
    `getBrowserScraper`: the existing instance when there is one, otherwise a fresh
    scraper with a new id, which is stored. Either way the registry afterwards holds
    exactly the instance returned.
   */
  function GetBrowserScraper(reg: Registry): (r: (Registry, Instance))
    ensures r.0.instance == Some(r.1)
    ensures reg.instance.Some? ==> r == (reg, reg.instance.value)
    ensures reg.instance.None? ==> r.1.session == Fresh && r.1.id == reg.created && r.0.created == reg.created + 1
    ensures RegistryValid(reg) ==> RegistryValid(r.0)
  {
    match reg.instance
    case Some(inst) => (reg, inst)
    case None =>
      var inst := Instance(reg.created, Fresh);
      (Registry(Some(inst), reg.created + 1), inst)
  }

  /** The instance's session after a call that changed it (the JavaScript object is shared). */
  function Store(reg: Registry, s: Session): (r: Registry)
    requires reg.instance.Some?
    ensures r.instance.Some? && r.instance.value.id == reg.instance.value.id && r.instance.value.session == s
    ensures r.created == reg.created
  {
    Registry(Some(reg.instance.value.(session := s)), reg.created)
  }

  /**
    `closeBrowserScraper`: close the instance's browser and forget the instance; with
    no instance it does nothing. The session it returns is the closed one, if any.
   */
  function CloseBrowserScraper(reg: Registry): (r: (Registry, Option<Session>))
    ensures r.0.instance.None? && r.0.created == reg.created
    ensures reg.instance.None? ==> r == (reg, None)
    ensures reg.instance.Some? ==> r.1 == Some(Close(reg.instance.value.session)) && !r.1.value.browser
    ensures RegistryValid(reg) && reg.instance.Some? ==> !r.1.value.context
  {
    match reg.instance
    case None => (reg, None)
    case Some(inst) => (Registry(None, reg.created), Some(Close(inst.session)))
  }

  /**
    The getter is stable until a reset: getting twice gives the same instance and
    leaves the registry as the first get left it; after `closeBrowserScraper` the next
    get creates an instance different from every earlier one.
   */
  lemma {:induction false} SingletonLifecycle(reg: Registry)
    requires RegistryValid(reg)
    ensures var (r1, i1) := GetBrowserScraper(reg);
      var (r2, i2) := GetBrowserScraper(r1);
      r2 == r1 && i2 == i1
    ensures var (closed, _) := CloseBrowserScraper(reg);
      var (_, i) := GetBrowserScraper(closed);
      i.session == Fresh && (reg.instance.Some? ==> i.id != reg.instance.value.id)
  {
  }
}

=== FILE: dashboard.dfy ===
/**
  The dashboard's lead workflow: the batch that turns a niche into qualified leads by
  calling the search, scrape and analyze endpoints one store at a time, and the
  operations on the resulting lead list (status updates, filtering, statistics and
  CSV export).
 */
module Dashboard {
  import opened Wrappers
  import opened Seqs
  import opened Strings
  import Js
  import opened Extractor
  import AiAnalyzer
  import ScrapeStore
  import SearchStores
  import Host
  import Browser
  import Detector

  /**
    The settings the batch reads. `maxResults` is `None` when the number input held
    no integer (`parseInt` gave `NaN`).
   */
  datatype Settings = Settings(apiKey: string, apiEndpoint: string, niche: string, maxResults: Option<int>)

  datatype Lead = Lead(
    id: int,
    url: string,
    title: string,
    niche: string,
    score: real,
    scoreReason: Js.Value,
    email: Option<string>,
    contactPage: Option<string>,
    instagram: Option<string>,
    hook: Js.Value,
    offer: Js.Value,
    status: string,
    timestamp: string)

  /** A value shown by the progress bar; `total` is whatever number the batch put there. */
  datatype Progress = Progress(current: int, total: Js.Value, stage: string)

  /** A POST to one of the backend endpoints, with the body it carries. */
  datatype Call =
    | SearchCall(endpoint: string, niche: string, maxResults: SearchStores.Limit)
    | ScrapeCall(endpoint: string, url: string)
    | AnalyzeCall(endpoint: string, content: StoreContent, apiKey: string)

  /**
    What the endpoints answer (`Thrown` is a request that failed without a response)
    and the clock readings taken while store `i` is turned into a lead.
   */
  datatype Backend = Backend(
    search: (string, SearchStores.Limit) -> Result<SearchStores.SearchResponse>,
    scrape: string -> Result<ScrapeStore.ScrapeResponse>,
    analyze: (StoreContent, string) -> Result<AiAnalyzer.Analysis>,
    idAt: nat -> int,
    timestampAt: nat -> string)

  const MissingKeyAlert := "Please add your OpenAI API key in settings"
  const MissingEndpointAlert := "Please add your API endpoint in settings"
  const NotContacted := "Not Contacted"

  /** The niches a lead may have. */
  const TargetNiches: seq<string> := ["Fashion", "Beauty", "Supplements"]

  predicate IsTargetNiche(v: Js.Value) {
    v.Str? && v.s in TargetNiches
  }

  /** The batch can run: both settings are non-empty. */
  predicate Ready(s: Settings) {
    s.apiKey != "" && s.apiEndpoint != ""
  }

  /** The `maxResults` of the search request: a `NaN` travels as JSON `null`. */
  function LimitOf(maxResults: Option<int>): SearchStores.Limit {
    match maxResults
    case None => SearchStores.NullLimit
    case Some(n) => SearchStores.Given(n)
  }

  function TotalOf(maxResults: Option<int>): Js.Value {
    match maxResults
    case None => Js.NaN
    case Some(n) => Js.Num(n as real)
  }

  /** The message the HTTP client throws for a response outside the 2xx range. */
  function StatusError(code: int): string {
    if code == 400 then "Request failed with status code 400" else "Request failed with status code 500"
  }

  /** The store list of the search reply; a failed request or an error status throws. */
  function StoresOf(reply: Result<SearchStores.SearchResponse>): (r: Result<seq<SearchStores.PendingStore>>)
    ensures r.Done? <==> reply.Done? && reply.value.Found?
    ensures r.Done? ==> r.value == reply.value.stores
    ensures reply.Thrown? ==> r == Thrown(reply.message)
  {
    match reply
    case Thrown(m) => Thrown(m)
    case Done(response) =>
      match response
      case Found(_, stores) => Done(stores)
      case BadRequest(_) => Thrown(StatusError(400))
      case ServerError(_, _) => Thrown(StatusError(500))
  }

  /** The scrape reply reached the client with status 200 and says the store runs on Shopify. */
  predicate ScrapedShopify(reply: Result<ScrapeStore.ScrapeResponse>) {
    reply.Done? && reply.value.Scraped?
  }

  /** The scrape reply reached the client with status 200 and says the store does not run on Shopify. */
  predicate ScrapedOther(reply: Result<ScrapeStore.ScrapeResponse>) {
    reply.Done? && reply.value.NotShopify?
  }

  /** What became of one store in the batch. */
  datatype StoreOutcome = ScrapeFailed | NotShopify | AnalysisFailed | OffNiche | Accepted(lead: Lead)

  /** The lead recorded for store `i`, from its scrape and analysis replies. */
  function NewLead(i: nat, url: string, page: ScrapeStore.ScrapeResponse, a: AiAnalyzer.Analysis, b: Backend): Lead
    requires page.Scraped? && a.niche.Str?
  {
    Lead(b.idAt(i), url, page.storeContent.title, a.niche.s, a.qualityScore, a.qualityReason,
         page.contactInfo.email, page.contactInfo.contactPage, page.contactInfo.instagram,
         a.outreachHook, a.outreachOffer, NotContacted, b.timestampAt(i))
  }

  /**
    One store of the batch as a pure function: a failed scrape (no response or an
    error status) and a failed analysis are swallowed, a store of another platform is
    skipped before analysis, and only the target niches become leads.
   */
  function ProcessStore(i: nat, url: string, s: Settings, b: Backend): (r: StoreOutcome)
    ensures r.ScrapeFailed? <==> !ScrapedShopify(b.scrape(url)) && !ScrapedOther(b.scrape(url))
    ensures r.NotShopify? <==> ScrapedOther(b.scrape(url))
    ensures r.AnalysisFailed? <==> ScrapedShopify(b.scrape(url)) && b.analyze(b.scrape(url).value.storeContent, s.apiKey).Thrown?
    ensures r.Accepted? ==> (ScrapedShopify(b.scrape(url))
      && var page := b.scrape(url).value;
         var a := b.analyze(page.storeContent, s.apiKey);
         && a.Done? && IsTargetNiche(a.value.niche)
         && r.lead.url == url && r.lead.niche in TargetNiches && r.lead.status == NotContacted
         && r.lead.title == page.storeContent.title
         && r.lead.email == page.contactInfo.email && r.lead.instagram == page.contactInfo.instagram
         && r.lead.contactPage == page.contactInfo.contactPage
         && r.lead.score == a.value.qualityScore && r.lead.hook == a.value.outreachHook
         && r.lead.offer == a.value.outreachOffer)
    ensures r.OffNiche? <==> (ScrapedShopify(b.scrape(url))
      && var a := b.analyze(b.scrape(url).value.storeContent, s.apiKey);
         a.Done? && !IsTargetNiche(a.value.niche))
  {
    var reply := b.scrape(url);
    if ScrapedOther(reply) then NotShopify
    else if !ScrapedShopify(reply) then ScrapeFailed
    else
      var analysis := b.analyze(reply.value.storeContent, s.apiKey);
      if analysis.Thrown? then AnalysisFailed
      else if IsTargetNiche(analysis.value.niche) then Accepted(NewLead(i, url, reply.value, analysis.value, b))
      else OffNiche
  }

  /** The outcome of every store, in order; store `i` reads the clock as the `i`-th. */
  function Outcomes(stores: seq<SearchStores.PendingStore>, s: Settings, b: Backend): (r: seq<StoreOutcome>)
    ensures |r| == |stores|
    ensures forall i :: 0 <= i < |stores| ==> r[i] == ProcessStore(i, stores[i].url, s, b)
  {
    seq(|stores|, i requires 0 <= i < |stores| => ProcessStore(i, stores[i].url, s, b))
  }

  /** The leads of the accepted stores, in store order. */
  function LeadsOf(o: seq<StoreOutcome>): seq<Lead>
  {
    if o == [] then []
    else (if o[0].Accepted? then [o[0].lead] else []) + LeadsOf(o[1..])
  }

  /** The number of one-second pauses: only stores whose analysis came back pause. */
  function Delays(o: seq<StoreOutcome>): nat
  {
    if o == [] then 0
    else (if o[0].OffNiche? || o[0].Accepted? then 1 else 0) + Delays(o[1..])
  }

  /** The requests made for one store: the scrape, and the analysis only for a Shopify page. */
  function StoreCalls(url: string, s: Settings, b: Backend): (r: seq<Call>)
    ensures 1 <= |r| <= 2 && r[0] == ScrapeCall(s.apiEndpoint + "/scrape-store", url)
    ensures |r| == 2 <==> ScrapedShopify(b.scrape(url))
  {
    var reply := b.scrape(url);
    [ScrapeCall(s.apiEndpoint + "/scrape-store", url)]
    + if ScrapedShopify(reply) then [AnalyzeCall(s.apiEndpoint + "/analyze-store", reply.value.storeContent, s.apiKey)] else []
  }

  function CallsOf(stores: seq<SearchStores.PendingStore>, s: Settings, b: Backend): seq<Call>
  {
    if stores == [] then [] else StoreCalls(stores[0].url, s, b) + CallsOf(stores[1..], s, b)
  }

  function ProcessingStage(url: string): string {
    "Processing " + url + "..."
  }

  /** The three progress values shown before the per-store loop starts. */
  function Opening(s: Settings, n: int): seq<Progress> {
    [Progress(0, Js.Num(0.0), "Searching..."), Progress(0, TotalOf(s.maxResults), "Searching for stores..."),
     Progress(0, Js.Num(n as real), "Processing stores...")]
  }

  /**
    The observable effect of one press of the button: the lead list afterwards, every
    progress value shown, every request sent, the pauses taken, the alert raised and
    whether the settings panel was opened.
   */
  datatype Run = Run(leads: seq<Lead>, progress: seq<Progress>, calls: seq<Call>, delays: nat,
                     alert: Option<string>, openedSettings: bool)

  lemma {:induction false} LeadsOfAppend(a: seq<StoreOutcome>, b: seq<StoreOutcome>)
    ensures LeadsOf(a + b) == LeadsOf(a) + LeadsOf(b)
    ensures Delays(a + b) == Delays(a) + Delays(b)
  {
    if a != [] {
      assert (a + b)[1..] == a[1..] + b;
      LeadsOfAppend(a[1..], b);
    } else {
      assert a + b == b;
    }
  }

  lemma {:induction false} CallsOfAppend(a: seq<SearchStores.PendingStore>, c: seq<SearchStores.PendingStore>, s: Settings, b: Backend)
    ensures CallsOf(a + c, s, b) == CallsOf(a, s, b) + CallsOf(c, s, b)
  {
    if a != [] {
      assert (a + c)[1..] == a[1..] + c;
      CallsOfAppend(a[1..], c, s, b);
    } else {
      assert a + c == c;
    }
  }

  /** Extending the processed prefix by one store extends the leads, pauses and requests by that store's. */
  lemma StepFacts(stores: seq<SearchStores.PendingStore>, i: nat, s: Settings, b: Backend)
    requires i < |stores|
    ensures var o := Outcomes(stores, s, b);
      && LeadsOf(o[..i + 1]) == LeadsOf(o[..i]) + (if o[i].Accepted? then [o[i].lead] else [])
      && Delays(o[..i + 1]) == Delays(o[..i]) + (if o[i].OffNiche? || o[i].Accepted? then 1 else 0)
      && CallsOf(stores[..i + 1], s, b) == CallsOf(stores[..i], s, b) + StoreCalls(stores[i].url, s, b)
  {
    var o := Outcomes(stores, s, b);
    assert o[..i + 1] == o[..i] + [o[i]];
    LeadsOfAppend(o[..i], [o[i]]);
    assert stores[..i + 1] == stores[..i] + [stores[i]];
    CallsOfAppend(stores[..i], [stores[i]], s, b);
  }

  /** The search reply's store list, for the settings of the batch. */
  function SearchOutcome(s: Settings, b: Backend): Result<seq<SearchStores.PendingStore>> {
    StoresOf(b.search(s.niche, LimitOf(s.maxResults)))
  }

  /**
    The `for` loop of `findLeads` over the stores of a successful search: one progress
    value per store before it is processed, the requests it causes, the lead it yields
    if any and the pause taken after an analysis came back. A failing store is caught
    and the loop goes on with the next.
   */
  method ProcessStores(stores: seq<SearchStores.PendingStore>, s: Settings, b: Backend)
    returns (leads: seq<Lead>, progress: seq<Progress>, calls: seq<Call>, delays: nat)
    ensures leads == LeadsOf(Outcomes(stores, s, b)) && delays == Delays(Outcomes(stores, s, b))
    ensures calls == CallsOf(stores, s, b)
    ensures |progress| == |stores|
    ensures forall i :: 0 <= i < |stores| ==> progress[i] == Progress(i + 1, Js.Num(|stores| as real), ProcessingStage(stores[i].url))
  {
    var n := |stores|;
    leads, progress, calls, delays := [], [], [], 0;
    var i := 0;
    while i < n
      invariant 0 <= i <= n
      invariant leads == LeadsOf(Outcomes(stores, s, b)[..i])
      invariant delays == Delays(Outcomes(stores, s, b)[..i])
      invariant calls == CallsOf(stores[..i], s, b)
      invariant |progress| == i
      invariant forall k :: 0 <= k < i ==> progress[k] == Progress(k + 1, Js.Num(n as real), ProcessingStage(stores[k].url))
    {
      var url := stores[i].url;
      progress := progress + [Progress(i + 1, Js.Num(n as real), ProcessingStage(url))];
      StepFacts(stores, i, s, b);
      calls := calls + [ScrapeCall(s.apiEndpoint + "/scrape-store", url)];
      var reply := b.scrape(url);
      if ScrapedShopify(reply) {
        calls := calls + [AnalyzeCall(s.apiEndpoint + "/analyze-store", reply.value.storeContent, s.apiKey)];
        var analysis := b.analyze(reply.value.storeContent, s.apiKey);
        if analysis.Done? {
          if IsTargetNiche(analysis.value.niche) {
            leads := leads + [NewLead(i, url, reply.value, analysis.value, b)];
          }
          delays := delays + 1;
        }
      }
      i := i + 1;
    }
    assert Outcomes(stores, s, b)[..n] == Outcomes(stores, s, b);
    assert stores[..n] == stores;
  }

  /**
    `findLeads`. Without an API key or endpoint it only alerts and opens the settings,
    before any request and leaving the leads as they were. Otherwise the leads are
    cleared, the search request is sent, and a failed search leaves them empty with
    an alert. After a successful search every store is processed in turn: progress
    shows `i + 1` of `n` while store `i` is processed and `n` of `n` at the end; a store
    that fails in any way is skipped and the next one is processed; the leads are
    those of the accepted stores, in order.
   */
  method FindLeads(s: Settings, previous: seq<Lead>, b: Backend) returns (run: Run)
    ensures !Ready(s) ==> run.leads == previous && run.calls == [] && run.progress == []
                          && run.delays == 0 && run.openedSettings
    ensures s.apiKey == "" ==> run.alert == Some(MissingKeyAlert)
    ensures s.apiKey != "" && s.apiEndpoint == "" ==> run.alert == Some(MissingEndpointAlert)
    ensures Ready(s) ==> !run.openedSettings && |run.calls| >= 1
                         && run.calls[0] == SearchCall(s.apiEndpoint + "/search-stores", s.niche, LimitOf(s.maxResults))
                         && |run.progress| >= 2 && run.progress[..2] == Opening(s, 0)[..2]
    ensures Ready(s) && SearchOutcome(s, b).Thrown? ==>
      run == Run([], Opening(s, 0)[..2], [run.calls[0]], 0, Some("Error: " + SearchOutcome(s, b).message), false)
    ensures Ready(s) && SearchOutcome(s, b).Done? ==>
      var stores := SearchOutcome(s, b).value;
      var n := |stores|;
      && run.leads == LeadsOf(Outcomes(stores, s, b)) && run.delays == Delays(Outcomes(stores, s, b))
      && run.alert == None && run.calls == [run.calls[0]] + CallsOf(stores, s, b)
      && |run.progress| == n + 4 && run.progress[..3] == Opening(s, n)
      && (forall i :: 0 <= i < n ==> run.progress[3 + i] == Progress(i + 1, Js.Num(n as real), ProcessingStage(stores[i].url)))
      && run.progress[n + 3] == Progress(n, Js.Num(n as real), "Complete!")
  {
    if s.apiKey == "" {
      return Run(previous, [], [], 0, Some(MissingKeyAlert), true);
    }
    if s.apiEndpoint == "" {
      return Run(previous, [], [], 0, Some(MissingEndpointAlert), true);
    }
    var search := SearchCall(s.apiEndpoint + "/search-stores", s.niche, LimitOf(s.maxResults));
    var found := SearchOutcome(s, b);
    if found.Thrown? {
      return Run([], Opening(s, 0)[..2], [search], 0, Some("Error: " + found.message), false);
    }
    var stores := found.value;
    var n := |stores|;
    var leads, steps, calls, delays := ProcessStores(stores, s, b);
    var progress := Opening(s, n) + steps + [Progress(n, Js.Num(n as real), "Complete!")];
    assert forall i :: 0 <= i < n ==> progress[3 + i] == steps[i];
    assert progress[..2] == Opening(s, 0)[..2];
    return Run(leads, progress, [search] + calls, delays, None, false);
  }

  /**
    A store that yields no lead is isolated: the leads and pauses of the batch are those
    of the stores before it followed by those of the stores after it.
   */
  lemma FailureIsolated(o: seq<StoreOutcome>, k: nat)
    requires k < |o| && !o[k].Accepted?
    ensures LeadsOf(o) == LeadsOf(o[..k]) + LeadsOf(o[k + 1..])
    ensures !o[k].OffNiche? ==> Delays(o) == Delays(o[..k]) + Delays(o[k + 1..])
  {
    assert o == o[..k] + ([o[k]] + o[k + 1..]);
    SkipOne(o[..k], o[k], o[k + 1..]);
  }

  function LeadUrl(l: Lead): string {
    l.url
  }

  lemma SkipOne(before: seq<StoreOutcome>, x: StoreOutcome, after: seq<StoreOutcome>)
    requires !x.Accepted?
    ensures LeadsOf(before + ([x] + after)) == LeadsOf(before) + LeadsOf(after)
    ensures !x.OffNiche? ==> Delays(before + ([x] + after)) == Delays(before) + Delays(after)
  {
    LeadsOfAppend(before, [x] + after);
    assert ([x] + after)[1..] == after;
  }

  /**
    The leads appear in store-processing order: their URLs are a subsequence of the
    store URLs, and each has a target niche and the initial status.
   */
  lemma {:induction false} LeadsInStoreOrder(o: seq<StoreOutcome>, urls: seq<string>)
    requires |o| == |urls|
    requires forall i :: 0 <= i < |o| && o[i].Accepted? ==> o[i].lead.url == urls[i]
    ensures Subseq(Map(LeadUrl, LeadsOf(o)), urls)
  {
    if o != [] {
      LeadsInStoreOrder(o[1..], urls[1..]);
      var rest := Map(LeadUrl, LeadsOf(o[1..]));
      var all := Map(LeadUrl, LeadsOf(o));
      assert urls == [urls[0]] + urls[1..];
      if o[0].Accepted? {
        assert LeadsOf(o) == [o[0].lead] + LeadsOf(o[1..]);
        assert all[0] == urls[0] && all[1..] == rest;
      } else {
        assert LeadsOf(o) == LeadsOf(o[1..]);
        assert all == rest;
        SubseqCons(rest, urls[1..], urls[0]);
      }
    }
  }

  /** Every lead of a batch was accepted: it has a target niche and starts "Not Contacted". */
  lemma {:induction false} LeadsAccepted(stores: seq<SearchStores.PendingStore>, s: Settings, b: Backend, o: seq<StoreOutcome>)
    requires o == Outcomes(stores, s, b)
    ensures forall l :: l in LeadsOf(o) ==> l.niche in TargetNiches && l.status == NotContacted
  {
    LeadsSound(o);
  }

  lemma {:induction false} LeadsSound(o: seq<StoreOutcome>)
    requires forall i :: 0 <= i < |o| && o[i].Accepted? ==> o[i].lead.niche in TargetNiches && o[i].lead.status == NotContacted
    ensures forall l :: l in LeadsOf(o) ==> l.niche in TargetNiches && l.status == NotContacted
  {
    if o != [] {
      LeadsSound(o[1..]);
    }
  }

  // ---------------------------------------------------------------- lead list

  /**
    `updateLeadStatus`: the leads with the given id take the new status; nothing else
    changes, neither the other fields, nor the other leads, nor the length or order.
   */
  function UpdateLeadStatus(leads: seq<Lead>, id: int, newStatus: string): (r: seq<Lead>)
    ensures |r| == |leads|
    ensures forall i :: 0 <= i < |leads| ==> r[i].(status := leads[i].status) == leads[i]
    ensures forall i :: 0 <= i < |leads| ==> r[i].status == if leads[i].id == id then newStatus else leads[i].status
  {
    Map((l: Lead) => if l.id == id then l.(status := newStatus) else l, leads)
  }

  /** Setting the same status twice is setting it once. */
  lemma UpdateIdempotent(leads: seq<Lead>, id: int, newStatus: string)
    ensures UpdateLeadStatus(UpdateLeadStatus(leads, id, newStatus), id, newStatus) == UpdateLeadStatus(leads, id, newStatus)
  {
    var once := UpdateLeadStatus(leads, id, newStatus);
    var twice := UpdateLeadStatus(once, id, newStatus);
    forall i | 0 <= i < |leads|
      ensures twice[i] == once[i]
    {
      assert once[i].id == leads[i].id;
    }
  }

  /** Updates of two different ids do not interfere: their order does not matter. */
  lemma UpdatesCommute(leads: seq<Lead>, id1: int, s1: string, id2: int, s2: string)
    requires id1 != id2
    ensures UpdateLeadStatus(UpdateLeadStatus(leads, id1, s1), id2, s2)
         == UpdateLeadStatus(UpdateLeadStatus(leads, id2, s2), id1, s1)
  {
    var a := UpdateLeadStatus(UpdateLeadStatus(leads, id1, s1), id2, s2);
    var c := UpdateLeadStatus(UpdateLeadStatus(leads, id2, s2), id1, s1);
    forall i | 0 <= i < |leads|
      ensures a[i] == c[i]
    {
      assert UpdateLeadStatus(leads, id1, s1)[i].id == leads[i].id;
      assert UpdateLeadStatus(leads, id2, s2)[i].id == leads[i].id;
    }
  }

  /** The filter panel: a niche (or "all") and a minimum score; `None` is a `NaN` minimum. */
  datatype LeadFilter = LeadFilter(niche: string, minScore: Option<real>)

  const InitialFilter := LeadFilter("all", Some(0.0))

  /** `lead.score < NaN` is false, so a `NaN` minimum keeps every score. */
  predicate Passes(f: LeadFilter, l: Lead) {
    (f.niche == "all" || l.niche == f.niche) && !(f.minScore.Some? && l.score < f.minScore.value)
  }

  /**
    `filteredLeads`: an order-preserving subsequence of the leads holding exactly the
    leads of the chosen niche ("all" choosing every niche) whose score reaches the
    minimum. The lead list itself is a value and is not changed.
   */
  function FilteredLeads(leads: seq<Lead>, f: LeadFilter): (r: seq<Lead>)
    ensures Subseq(r, leads)
    ensures forall i :: 0 <= i < |r| ==> (f.niche == "all" || r[i].niche == f.niche)
                                         && (f.minScore.Some? ==> r[i].score >= f.minScore.value)
    ensures forall i :: (0 <= i < |leads| && (f.niche == "all" || leads[i].niche == f.niche)
                         && (f.minScore.None? || leads[i].score >= f.minScore.value)) ==> leads[i] in r
  {
    Filter((l: Lead) => Passes(f, l), leads)
  }

  /** The initial filter hides nothing from a list of scored leads. */
  lemma {:induction false} InitialFilterKeepsAll(leads: seq<Lead>)
    requires forall i :: 0 <= i < |leads| ==> leads[i].score >= 0.0
    ensures FilteredLeads(leads, InitialFilter) == leads
  {
    if leads != [] {
      InitialFilterKeepsAll(leads[1..]);
    }
  }

  datatype Stats = Stats(total: nat, avgScore: real, withEmail: nat, withInstagram: nat)

  /** A contact field is truthy: present and non-empty. */
  predicate HasText(o: Option<string>) {
    o.Some? && o.value != ""
  }

  function SumScores(leads: seq<Lead>): real
  {
    if leads == [] then 0.0 else leads[0].score + SumScores(leads[1..])
  }

  /** `l => l.email`, as the filter's truth test. */
  predicate HasEmail(l: Lead) {
    HasText(l.email)
  }

  /** `l => l.instagram`, as the filter's truth test. */
  predicate HasInstagram(l: Lead) {
    HasText(l.instagram)
  }

  /**
    The `stats` panel: the number of leads, their mean score (0 for no leads) and how
    many have an email or an Instagram link. The mean times the number of leads is the
    sum of their scores.
   */
  function ComputeStats(leads: seq<Lead>): (r: Stats)
    ensures r.total == |leads| && r.withEmail <= r.total && r.withInstagram <= r.total
    ensures r.total == 0 ==> r.avgScore == 0.0
    ensures IsMeanScore(r.avgScore, leads)
    ensures r.withEmail == r.total <==> forall i :: 0 <= i < |leads| ==> HasEmail(leads[i])
    ensures r.withInstagram == r.total <==> forall i :: 0 <= i < |leads| ==> HasInstagram(leads[i])
  {
    FilterKeepsAll(HasEmail, leads);
    FilterKeepsAll(HasInstagram, leads);
    var mean := MeanScore(leads);
    Stats(|leads|, mean, |Filter(HasEmail, leads)|, |Filter(HasInstagram, leads)|)
  }

  /** `m` times the number of leads is the sum of their scores: `m` is their mean. */
  predicate IsMeanScore(m: real, leads: seq<Lead>) {
    leads != [] ==> m * (|leads| as real) == SumScores(leads)
  }

  /** The mean score of the leads, 0 for none. */
  function MeanScore(leads: seq<Lead>): (m: real)
    ensures leads == [] ==> m == 0.0
    ensures IsMeanScore(m, leads)
  {
    if leads == [] then 0.0
    else
      DivideBack(SumScores(leads), |leads| as real);
      SumScores(leads) / (|leads| as real)
  }

  lemma DivideBack(sum: real, n: real)
    requires n > 0.0
    ensures (sum / n) * n == sum
  {
  }

  /** The sum of scores over two lists is the sum of their sums. */
  lemma {:induction false} SumScoresAppend(a: seq<Lead>, b: seq<Lead>)
    ensures SumScores(a + b) == SumScores(a) + SumScores(b)
  {
    if a != [] {
      assert (a + b)[1..] == a[1..] + b;
      SumScoresAppend(a[1..], b);
    } else {
      assert a + b == b;
    }
  }

  /**
    The counts of the panel add up over a split of the lead list, so together with the
    single-lead case of `StatsOfOne` they pin every count down.
   */
  lemma StatsAppend(a: seq<Lead>, b: seq<Lead>)
    ensures ComputeStats(a + b).total == ComputeStats(a).total + ComputeStats(b).total
    ensures ComputeStats(a + b).withEmail == ComputeStats(a).withEmail + ComputeStats(b).withEmail
    ensures ComputeStats(a + b).withInstagram == ComputeStats(a).withInstagram + ComputeStats(b).withInstagram
    ensures SumScores(a + b) == SumScores(a) + SumScores(b)
  {
    FilterAppend(HasEmail, a, b);
    FilterAppend(HasInstagram, a, b);
    SumScoresAppend(a, b);
  }

  /** One lead: a count of one exactly for the contact field it has, and its own score as the mean. */
  lemma StatsOfOne(l: Lead)
    ensures ComputeStats([l]) == Stats(1, l.score, if HasText(l.email) then 1 else 0,
                                        if HasText(l.instagram) then 1 else 0)
  {
    assert [l][1..] == [];
    assert SumScores([l]) == l.score;
    assert Filter(HasEmail, [l]) == if HasEmail(l) then [l] else [];
    assert Filter(HasInstagram, [l]) == if HasInstagram(l) then [l] else [];
  }

  lemma {:induction false} SumBounds(leads: seq<Lead>, lo: real, hi: real)
    requires forall i :: 0 <= i < |leads| ==> lo <= leads[i].score <= hi
    ensures (|leads| as real) * lo <= SumScores(leads) <= (|leads| as real) * hi
  {
    if leads != [] {
      SumBounds(leads[1..], lo, hi);
    }
  }

  lemma MeanBounds(sum: real, n: real, lo: real, hi: real)
    requires n > 0.0 && n * lo <= sum <= n * hi
    ensures lo <= sum / n <= hi
  {
    assert sum / n - lo == (sum - n * lo) / n;
    assert hi - sum / n == (n * hi - sum) / n;
  }

  /** The mean score lies between the lowest and highest possible scores of the leads. */
  lemma AverageBounds(leads: seq<Lead>, lo: real, hi: real)
    requires forall i :: 0 <= i < |leads| ==> lo <= leads[i].score <= hi
    requires |leads| > 0
    ensures lo <= ComputeStats(leads).avgScore <= hi
  {
    SumBounds(leads, lo, hi);
    MeanBounds(SumScores(leads), |leads| as real, lo, hi);
  }

  lemma {:induction false} LeadScoresFrom(o: seq<StoreOutcome>)
    requires forall i :: 0 <= i < |o| && o[i].Accepted? ==> 1.0 <= o[i].lead.score <= 10.0
    ensures forall i :: 0 <= i < |LeadsOf(o)| ==> 1.0 <= LeadsOf(o)[i].score <= 10.0
  {
    if o != [] {
      LeadScoresFrom(o[1..]);
    }
  }

  // ---------------------------------------------------------------- end to end

  /**
    The scrape endpoint's replies are the handler's own: whenever url `u` gets a
    response, it is what `ScrapeStore.HandleScrape` answers for it with the server's
    registry `regAt(u)` and browser outcomes `envAt(u)` at that moment.
   */
  ghost predicate ScrapesWith(b: Backend, regAt: string -> Browser.Registry, envAt: string -> Browser.BrowserEnv, p: Host.Platform) {
    forall u :: b.scrape(u).Done? ==>
      b.scrape(u).value == ScrapeStore.HandleScrape(regAt(u), ScrapeStore.ScrapeRequest(Js.Str(u)), envAt(u), p).1
  }

  /**
    The analyze endpoint's successful replies are the analyzer's own, for the
    completion replies `comps`.
   */
  ghost predicate AnalyzesWith(b: Backend, comps: AiAnalyzer.Completions, p: Host.Platform) {
    forall c, k :: b.analyze(c, k).Done? ==> b.analyze(c, k).value == AiAnalyzer.AnalyzeStore(c, comps, p)
  }

  /**
    With the endpoints served by the handlers, a store becomes a lead only when the
    page fetched for the requested url was detected as Shopify; the lead's contact
    fields are those extracted from that page and its score lies in [1, 10].
   */
  lemma LeadFromShopifyPage(i: nat, url: string, s: Settings, b: Backend, regAt: string -> Browser.Registry,
                            envAt: string -> Browser.BrowserEnv, comps: AiAnalyzer.Completions, p: Host.Platform)
    requires ScrapesWith(b, regAt, envAt, p) && AnalyzesWith(b, comps, p)
    ensures var r := ProcessStore(i, url, s, b);
      r.Accepted? ==> (envAt(url).navigation.Done?
        && var html := envAt(url).navigation.value.html;
           && Detector.DetectShopify(html, url).isShopify
           && r.lead.email == ExtractContactInfo(html, url, p).email
           && r.lead.contactPage == ExtractContactInfo(html, url, p).contactPage
           && r.lead.instagram == ExtractContactInfo(html, url, p).instagram
           && 1.0 <= r.lead.score <= 10.0)
  {
    var r := ProcessStore(i, url, s, b);
    if r.Accepted? {
      var reply := ScrapeStore.HandleScrape(regAt(url), ScrapeStore.ScrapeRequest(Js.Str(url)), envAt(url), p).1;
      assert b.scrape(url).value == reply;
      var a := b.analyze(reply.storeContent, s.apiKey);
      assert a.value == AiAnalyzer.AnalyzeStore(reply.storeContent, comps, p);
    }
  }

  /**
    A failed scoring call does not lose the store: when the page is Shopify and the
    classification names a target niche, the store still becomes a lead, with score 5
    and the reason "Scoring failed".
   */
  lemma ScoringFailureStillLead(i: nat, url: string, s: Settings, b: Backend, comps: AiAnalyzer.Completions, p: Host.Platform)
    requires AnalyzesWith(b, comps, p)
    requires ScrapedShopify(b.scrape(url))
    requires b.analyze(b.scrape(url).value.storeContent, s.apiKey).Done?
    requires comps.score(b.scrape(url).value.storeContent).None?
    requires IsTargetNiche(AiAnalyzer.ClassifyNiche(comps.classify(b.scrape(url).value.storeContent)).niche)
    ensures ProcessStore(i, url, s, b).Accepted?
    ensures ProcessStore(i, url, s, b).lead.score == 5.0
    ensures ProcessStore(i, url, s, b).lead.scoreReason == Js.Str("Scoring failed")
  {
    var content := b.scrape(url).value.storeContent;
    assert b.analyze(content, s.apiKey).value == AiAnalyzer.AnalyzeStore(content, comps, p);
  }

  /**
    With the analyze endpoint served by the analyzer, every lead of a batch has a score
    in [1, 10], and so does their mean on the stats panel: the range that
    `AiAnalyzer.AnalyzeStore` guarantees reaches the dashboard.
   */
  lemma BatchScoresInRange(stores: seq<SearchStores.PendingStore>, s: Settings, b: Backend,
                           comps: AiAnalyzer.Completions, p: Host.Platform)
    requires AnalyzesWith(b, comps, p)
    ensures forall l :: l in LeadsOf(Outcomes(stores, s, b)) ==> 1.0 <= l.score <= 10.0
    ensures LeadsOf(Outcomes(stores, s, b)) != [] ==> 1.0 <= ComputeStats(LeadsOf(Outcomes(stores, s, b))).avgScore <= 10.0
  {
    var o := Outcomes(stores, s, b);
    forall c: StoreContent | b.analyze(c, s.apiKey).Done?
      ensures 1.0 <= b.analyze(c, s.apiKey).value.qualityScore <= 10.0
    {
      assert b.analyze(c, s.apiKey).value == AiAnalyzer.AnalyzeStore(c, comps, p);
    }
    LeadScoresFrom(o);
    if LeadsOf(o) != [] {
      AverageBounds(LeadsOf(o), 1.0, 10.0);
    }
  }

  // ---------------------------------------------------------------- CSV export

  const CsvHeaders: seq<string> := ["URL", "Title", "Niche", "Quality Score", "Email", "Contact Page",
                                    "Instagram", "Outreach Hook", "Offer", "Status", "Timestamp"]

  /** `x || ''` for an optional contact field. */
  function OrEmpty(o: Option<string>): string {
    if HasText(o) then o.value else ""
  }

  /** The eleven cells of a lead's row, as text; numbers are displayed by `show`. */
  function Cells(l: Lead, show: real -> string): (r: seq<string>)
    ensures |r| == |CsvHeaders|
    ensures r[0] == l.url && r[1] == l.title && r[2] == l.niche && r[9] == l.status && r[10] == l.timestamp
    ensures r[3] == show(l.score) && r[7] == Js.ToText(l.hook, show) && r[8] == Js.ToText(l.offer, show)
    ensures r[4] == (if HasText(l.email) then l.email.value else "")
    ensures r[5] == (if HasText(l.contactPage) then l.contactPage.value else "")
    ensures r[6] == (if HasText(l.instagram) then l.instagram.value else "")
    ensures r[4] == "" <==> !HasText(l.email)
  {
    [l.url, l.title, l.niche, show(l.score), OrEmpty(l.email), OrEmpty(l.contactPage), OrEmpty(l.instagram),
     Js.ToText(l.hook, show), Js.ToText(l.offer, show), l.status, l.timestamp]
  }

  /** A cell as the export writes it: between double quotes, with inner quotes left as they are. */
  function QuoteAsWritten(cell: string): string {
    "\"" + cell + "\""
  }

  function RowAsWritten(cells: seq<string>): string {
    Join(Map(QuoteAsWritten, cells), ",")
  }

  /** Two different rows whose written lines coincide: a quote in a cell splits it in two. */
  lemma QuoteCollision()
    ensures ["a\",\"b"] != ["a", "b"]
    ensures RowAsWritten(["a\",\"b"]) == RowAsWritten(["a", "b"])
  {
    assert ["a\",\"b"][0] != ["a", "b"][0];
    var two := Map(QuoteAsWritten, ["a", "b"]);
    assert two[0] == "\"a\"" && two[1] == "\"b\"";
    assert Join(two, ",") == two[0] + "," + Join(two[1..], ",");
    assert Join(two[1..], ",") == "\"b\"";
    var one := Map(QuoteAsWritten, ["a\",\"b"]);
    assert one[0] == "\"a\",\"b\"";
    assert Join(one, ",") == one[0];
  }

  /** No cell contains a double quote. */
  predicate QuoteFree(cells: seq<string>) {
    forall i :: 0 <= i < |cells| ==> '"' !in cells[i]
  }

  lemma {:induction false} EscapeQuoteFree(cell: string)
    requires '"' !in cell
    ensures Escape(cell) == cell
  {
    if cell != [] {
      EscapeQuoteFree(cell[1..]);
      assert cell == [cell[0]] + cell[1..];
    }
  }

  /**
    The export as written is only wrong for cells that contain a double quote: a row
    whose cells have none decodes back to exactly its cells.
   */
  lemma QuoteFreeRowRoundTrip(cells: seq<string>)
    requires cells != [] && QuoteFree(cells)
    ensures ParseRow(RowAsWritten(cells)) == Some(cells)
  {
    forall i | 0 <= i < |cells|
      ensures QuoteAsWritten(cells[i]) == QuoteCell(cells[i])
    {
      EscapeQuoteFree(cells[i]);
    }
    assert Map(QuoteAsWritten, cells) == Map(QuoteCell, cells);
    RowRoundTrip(cells);
  }

  /** `exportToCSV` as written: nothing for an empty list, else the header and one row per filtered lead. */
  function ExportCsvAsWritten(leads: seq<Lead>, f: LeadFilter, show: real -> string): (r: Option<seq<string>>)
    ensures r.None? <==> leads == []
    ensures r.Some? ==> var shown := FilteredLeads(leads, f);
      && |r.value| == 1 + |shown| && r.value[0] == Join(CsvHeaders, ",")
      && forall i :: 0 <= i < |shown| ==> r.value[i + 1] == RowAsWritten(Cells(shown[i], show))
  {
    if leads == [] then None
    else Some(LinesAsWritten(Join(CsvHeaders, ","), FilteredLeads(leads, f), show))
  }

  /** The header line followed by one row per lead, each written with unescaped quotes. */
  function LinesAsWritten(header: string, shown: seq<Lead>, show: real -> string): (r: seq<string>)
    ensures |r| == 1 + |shown| && r[0] == header
    ensures forall i :: 0 <= i < |shown| ==> r[i + 1] == RowAsWritten(Cells(shown[i], show))
  {
    var rows := RowsAsWritten(shown, show);
    assert forall i :: 0 <= i < |rows| ==> ([header] + rows)[i + 1] == rows[i];
    [header] + rows
  }

  /** One row per lead, in order, each written with unescaped quotes. */
  function RowsAsWritten(shown: seq<Lead>, show: real -> string): (r: seq<string>)
    ensures |r| == |shown|
    ensures forall i :: 0 <= i < |shown| ==> r[i] == RowAsWritten(Cells(shown[i], show))
  {
    if shown == [] then []
    else
      var rest := RowsAsWritten(shown[1..], show);
      assert forall i :: 1 <= i < |shown| ==> shown[i] == shown[1..][i - 1];
      [RowAsWritten(Cells(shown[0], show))] + rest
  }

  /** The text of a cell with every double quote doubled, as section 2 of RFC 4180 requires. */
  function Escape(cell: string): string
  {
    if cell == [] then [] else (if cell[0] == '"' then "\"\"" else [cell[0]]) + Escape(cell[1..])
  }

  function QuoteCell(cell: string): string {
    "\"" + Escape(cell) + "\""
  }

  function Row(cells: seq<string>): string {
    Join(Map(QuoteCell, cells), ",")
  }

  /**
    Reads the inside of a quoted cell up to its closing quote: the cell's text and what
    follows the closing quote, or `None` when the quote is never closed.
   */
  function ReadQuoted(s: string): (r: Option<(string, string)>)
    ensures r.Some? ==> |r.value.1| < |s|
    decreases |s|
  {
    if s == [] then None
    else if s[0] != '"' then
      match ReadQuoted(s[1..])
      case None => None
      case Some(cr) => Some(([s[0]] + cr.0, cr.1))
    else if |s| >= 2 && s[1] == '"' then
      match ReadQuoted(s[2..])
      case None => None
      case Some(cr) => Some((['"'] + cr.0, cr.1))
    else Some(([], s[1..]))
  }

  /** Decodes a row of quoted, comma-separated cells. */
  function ParseRow(s: string): Option<seq<string>>
    decreases |s|
  {
    if s == [] || s[0] != '"' then None
    else
      match ReadQuoted(s[1..])
      case None => None
      case Some(cr) =>
        if cr.1 == [] then Some([cr.0])
        else if cr.1[0] != ',' then None
        else
          match ParseRow(cr.1[1..])
          case None => None
          case Some(cells) => Some([cr.0] + cells)
  }

  lemma {:induction false} ReadEscaped(cell: string, rest: string)
    requires rest == [] || rest[0] != '"'
    ensures ReadQuoted(Escape(cell) + "\"" + rest) == Some((cell, rest))
  {
    if cell != [] {
      ReadEscaped(cell[1..], rest);
      var tail := Escape(cell[1..]) + "\"" + rest;
      if cell[0] == '"' {
        assert Escape(cell) + "\"" + rest == "\"\"" + tail;
        assert ("\"\"" + tail)[2..] == tail;
      } else {
        assert Escape(cell) + "\"" + rest == [cell[0]] + tail;
        assert ([cell[0]] + tail)[1..] == tail;
      }
      assert [cell[0]] + cell[1..] == cell;
    } else {
      assert Escape(cell) + "\"" + rest == "\"" + rest;
    }
  }

  /** Every row the corrected export writes decodes back to exactly its cells. */
  lemma {:induction false} RowRoundTrip(cells: seq<string>)
    requires cells != []
    ensures ParseRow(Row(cells)) == Some(cells)
  {
    if |cells| == 1 {
      LastCellRoundTrip(cells[0]);
      assert Row(cells) == QuoteCell(cells[0]);
      assert cells == [cells[0]];
    } else {
      RowRoundTrip(cells[1..]);
      RowCons(cells);
      CellThenRow(cells[0], Row(cells[1..]), cells[1..]);
      assert [cells[0]] + cells[1..] == cells;
    }
  }

  lemma LastCellRoundTrip(cell: string)
    ensures ParseRow(QuoteCell(cell)) == Some([cell])
  {
    var s := QuoteCell(cell);
    ReadEscaped(cell, "");
    assert s[0] == '"' && s[1..] == Escape(cell) + "\"" + "";
  }

  /** A row of several cells is its first quoted cell, a comma and the row of the rest. */
  lemma RowCons(cells: seq<string>)
    requires |cells| >= 2
    ensures Row(cells) == QuoteCell(cells[0]) + "," + Row(cells[1..])
  {
    var quoted := Map(QuoteCell, cells);
    assert quoted[1..] == Map(QuoteCell, cells[1..]);
  }

  lemma CellThenRow(cell: string, rest: string, cells: seq<string>)
    requires ParseRow(rest) == Some(cells)
    ensures ParseRow(QuoteCell(cell) + "," + rest) == Some([cell] + cells)
  {
    var tail := "," + rest;
    var s := QuoteCell(cell) + "," + rest;
    ReadEscaped(cell, tail);
    assert s[0] == '"' && s[1..] == Escape(cell) + "\"" + tail;
    assert tail[1..] == rest;
  }

  /** One escaped row per lead, in order; each decodes back to its lead's cells. */
  function CsvRows(shown: seq<Lead>, show: real -> string): (r: seq<string>)
    ensures |r| == |shown|
    ensures forall i :: 0 <= i < |shown| ==> ParseRow(r[i]) == Some(Cells(shown[i], show))
  {
    if shown == [] then []
    else
      RowRoundTrip(Cells(shown[0], show));
      var rest := CsvRows(shown[1..], show);
      assert forall i :: 1 <= i < |shown| ==> shown[i] == shown[1..][i - 1];
      [Row(Cells(shown[0], show))] + rest
  }

  /**
    `exportToCSV` with the cells escaped: nothing for an empty list (even when the filter
    would show leads of none), else the header line and one line per filtered lead that
    decodes back to that lead's eleven cells.
   */
  function ExportCsv(leads: seq<Lead>, f: LeadFilter, show: real -> string): (r: Option<seq<string>>)
    ensures r.None? <==> leads == []
    ensures r.Some? ==> var shown := FilteredLeads(leads, f);
      && |r.value| == 1 + |shown| && r.value[0] == Join(CsvHeaders, ",")
      && forall i :: 0 <= i < |shown| ==> ParseRow(r.value[i + 1]) == Some(Cells(shown[i], show))
  {
    if leads == [] then None
    else Some(CsvLines(Join(CsvHeaders, ","), FilteredLeads(leads, f), show))
  }

  /** The header line followed by one escaped row per lead, each decoding back to its lead's cells. */
  function CsvLines(header: string, shown: seq<Lead>, show: real -> string): (r: seq<string>)
    ensures |r| == 1 + |shown| && r[0] == header
    ensures forall i :: 0 <= i < |shown| ==> ParseRow(r[i + 1]) == Some(Cells(shown[i], show))
  {
    var rows := CsvRows(shown, show);
    assert forall i :: 0 <= i < |rows| ==> ([header] + rows)[i + 1] == rows[i];
    [header] + rows
  }

  /** The CSV file: its lines joined by newlines. */
  function CsvText(lines: seq<string>): string {
    Join(lines, "\n")
  }
}

=== FILE: detector.dfy ===
/**
  Platform detection: five independent indicators read from a page's HTML and URL,
  any one of which is enough to call the page a store of the platform.
 */
module Detector {
  import opened Wrappers
  import opened Strings
  import opened Host

  /** The indicator map; `metaGenerator` is the generator meta tag's content, when there is one. */
  datatype Indicators = Indicators(
    metaGenerator: Option<string>,
    shopifyCheckout: bool,
    shopifyScripts: bool,
    shopifyAssets: bool,
    myshopifyDomain: bool)

  datatype Detection = Detection(isShopify: bool, confidence: real, indicators: Indicators)

  /** A generator tag counts toward confidence when its content is a non-empty string. */
  predicate HasGenerator(ind: Indicators) {
    ind.metaGenerator.Some? && ind.metaGenerator.value != ""
  }

  /** The generator tag names the platform, ignoring case. */
  predicate GeneratorSaysShopify(ind: Indicators) {
    ind.metaGenerator.Some? && Contains(Lower(ind.metaGenerator.value), "shopify")
  }

  /** `Object.values(indicators).filter(Boolean).length`. */
  function TruthyCount(ind: Indicators): nat {
    (if HasGenerator(ind) then 1 else 0)
    + (if ind.shopifyCheckout then 1 else 0)
    + (if ind.shopifyScripts then 1 else 0)
    + (if ind.shopifyAssets then 1 else 0)
    + (if ind.myshopifyDomain then 1 else 0)
  }

  /** The indicators as read from the document source, its generator meta tag and the URL. */
  function ReadIndicators(html: Document, url: string): Indicators {
    Indicators(
      MetaContent(html.elements, "generator"),
      Contains(html.source, "cdn.shopify.com"),
      Contains(html.source, "shopify.com/s/files"),
      Contains(html.source, "/shopifycloud/"),
      Contains(url, ".myshopify.com"))
  }

  /**
    `detectShopify(html, url)`. Confidence is the share of truthy indicators, so it lies in
    [0, 1]; the verdict is the OR of the five tests. A generator tag counts toward confidence
    whether or not it names the platform, so a positive verdict always carries at least 0.2.
   */
  function DetectShopify(html: Document, url: string): (r: Detection)
    ensures r.indicators == ReadIndicators(html, url)
    ensures r.confidence == TruthyCount(r.indicators) as real / 5.0
    ensures 0.0 <= r.confidence <= 1.0
    ensures r.isShopify <==> GeneratorSaysShopify(r.indicators) || Contains(html.source, "cdn.shopify.com")
                             || Contains(html.source, "shopify.com/s/files") || Contains(html.source, "/shopifycloud/")
                             || Contains(url, ".myshopify.com")
    ensures r.isShopify ==> r.confidence >= 0.2
  {
    var ind := ReadIndicators(html, url);
    var isShopify := GeneratorSaysShopify(ind) || ind.shopifyCheckout || ind.shopifyScripts
                     || ind.shopifyAssets || ind.myshopifyDomain;
    Detection(isShopify, TruthyCount(ind) as real / 5.0, ind)
  }

  /** A page carrying only a generator tag, with the given content. */
  function GeneratorOnlyPage(generator: string): Document {
    Document("", [Element("meta", map["name" := "generator", "content" := generator], "", "", false)], [])
  }

  /** On a generator-only page the generator is the one indicator that can be set. */
  lemma GeneratorOnlyIndicators(generator: string)
    ensures var ind := ReadIndicators(GeneratorOnlyPage(generator), "https://a.io");
      && ind.metaGenerator == Some(generator)
      && !ind.shopifyCheckout && !ind.shopifyScripts && !ind.shopifyAssets && !ind.myshopifyDomain
  {
    ShortNeverContains("", "cdn.shopify.com");
    ShortNeverContains("", "shopify.com/s/files");
    ShortNeverContains("", "/shopifycloud/");
    ShortNeverContains("https://a.io", ".myshopify.com");
  }

  lemma LowerShopifyMentions()
    ensures Contains(Lower("Shopify"), "shopify")
  {
    assert Lower("Shopify") == "shopify";
    assert OccursAt(Lower("Shopify"), "shopify", 0);
    ContainsAt(Lower("Shopify"), "shopify");
  }

  /**
    A generator tag that does not name the platform still counts: a page whose only
    indicator is a "Wix" generator gets confidence 0.2 and is NOT a store, while one whose
    only indicator is a "Shopify" generator gets the same 0.2 and IS one.
   */
  lemma GeneratorOnlyScenarios()
    ensures var d := DetectShopify(GeneratorOnlyPage("Wix"), "https://a.io");
      !d.isShopify && d.confidence == 0.2
    ensures var d := DetectShopify(GeneratorOnlyPage("Shopify"), "https://a.io");
      d.isShopify && d.confidence == 0.2
  {
    GeneratorOnlyIndicators("Wix");
    GeneratorOnlyIndicators("Shopify");
    ShortNeverContains(Lower("Wix"), "shopify");
    LowerShopifyMentions();
  }
}

=== FILE: discovery.dfy ===
/**
  Store discovery from a search engine's result pages, and the URL hygiene it applies
  to every result link: only plausible storefront URLs are kept, each reduced to its
  `protocol//hostname` origin, without duplicates.
 */
module Discovery {
  import opened Wrappers
  import opened Seqs
  import opened Strings
  import opened Host

  /** The three query templates, issued in this order. */
  function Queries(niche: string): seq<string> {
    ["\"powered by shopify\" " + niche, "site:myshopify.com " + niche, "shopify store " + niche]
  }

  predicate IsWebProtocol(protocol: string) {
    protocol == "https:" || protocol == "http:"
  }

  /** The platform's own domains, which are never stores. */
  const Excluded: seq<string> := ["shopify.com", "myshopify.com/admin", "apps.shopify.com"]

  /** `excluded.some(domain => hostname.includes(domain) && !hostname.endsWith('.myshopify.com'))`. */
  predicate IsExcludedHost(host: string) {
    exists i :: 0 <= i < |Excluded| && Contains(host, Excluded[i]) && !EndsWith(host, ".myshopify.com")
  }

  /**
    The three excluded domains all include "shopify.com", so the exclusion test is just
    "mentions shopify.com without being a *.myshopify.com store".
   */
  lemma ExcludedHostIff(host: string)
    ensures IsExcludedHost(host) <==> Contains(host, "shopify.com") && !EndsWith(host, ".myshopify.com")
  {
    if IsExcludedHost(host) {
      var i :| 0 <= i < |Excluded| && Contains(host, Excluded[i]) && !EndsWith(host, ".myshopify.com");
      if i == 1 {
        assert OccursAt("myshopify.com/admin", "shopify.com", 2);
        ContainsAt("myshopify.com/admin", "shopify.com");
        ContainsTransitive(host, Excluded[1], "shopify.com");
      } else if i == 2 {
        assert OccursAt("apps.shopify.com", "shopify.com", 5);
        ContainsAt("apps.shopify.com", "shopify.com");
        ContainsTransitive(host, Excluded[2], "shopify.com");
      }
    }
    if Contains(host, "shopify.com") && !EndsWith(host, ".myshopify.com") {
      assert Contains(host, Excluded[0]);
    }
  }

  /**
    `isValidShopifyUrl`: a URL is a candidate store exactly when it parses, its protocol
    is http or https, and its hostname does not mention shopify.com unless it ends in
    ".myshopify.com".
   */
  function IsValidShopifyUrl(url: string, p: Platform): (r: bool)
    ensures r <==> p.parseUrl(url).Some?
                   && IsWebProtocol(p.parseUrl(url).value.protocol)
                   && !(Contains(p.parseUrl(url).value.hostname, "shopify.com")
                        && !EndsWith(p.parseUrl(url).value.hostname, ".myshopify.com"))
  {
    match p.parseUrl(url)
    case None => false
    case Some(u) =>
      ExcludedHostIff(u.hostname);
      !IsExcludedHost(u.hostname) && IsWebProtocol(u.protocol)
  }

  /** The `protocol//hostname` origin of a parsed URL. */
  function Origin(u: Url): string {
    u.protocol + "//" + u.hostname
  }

  /** `cleanUrl`: reduce a URL to its origin, returning unparsable input unchanged. */
  function CleanUrl(url: string, p: Platform): string {
    match p.parseUrl(url)
    case None => url
    case Some(u) => Origin(u)
  }

  /** The parser reads an origin string back with the same protocol and hostname. */
  predicate ReparsesOrigin(p: Platform, u: Url) {
    p.parseUrl(Origin(u)).Some?
    && p.parseUrl(Origin(u)).value.protocol == u.protocol
    && p.parseUrl(Origin(u)).value.hostname == u.hostname
  }

  /**
    `cleanUrl` keeps only protocol and hostname: unparsable input comes back unchanged,
    two URLs that differ only in port, path, query or fragment clean to the same string,
    and cleaning is idempotent whenever the parser reads origins back faithfully.
   */
  lemma CleanUrlSpec(url: string, other: string, p: Platform)
    ensures p.parseUrl(url).None? ==> CleanUrl(url, p) == url
    ensures p.parseUrl(url).Some? && p.parseUrl(other).Some?
            && p.parseUrl(url).value.protocol == p.parseUrl(other).value.protocol
            && p.parseUrl(url).value.hostname == p.parseUrl(other).value.hostname
            ==> CleanUrl(url, p) == CleanUrl(other, p)
    ensures p.parseUrl(url).Some? && ReparsesOrigin(p, p.parseUrl(url).value)
            ==> CleanUrl(CleanUrl(url, p), p) == CleanUrl(url, p)
  {
  }

  /** The cleaned form of every accepted result link, in page order; a missing href is "". */
  function Harvest(links: seq<string>, p: Platform): seq<string>
  {
    if links == [] then []
    else if links[0] != "" && IsValidShopifyUrl(links[0], p) then [CleanUrl(links[0], p)] + Harvest(links[1..], p)
    else Harvest(links[1..], p)
  }

  /**
    The `.each` loop of one result page: `stores.add(cleanUrl(url))` for every accepted
    link. The store list stays duplicate-free, only grows at its end, and afterwards holds
    exactly what it held before plus the harvest of the page, in the insertion order of a
    JavaScript `Set`: each new store where it was first seen.
   */
  function AddLinks(links: seq<string>, stores: seq<string>, p: Platform): (r: seq<string>)
    requires NoDups(stores)
    ensures NoDups(r) && stores <= r
    ensures forall u :: u in r <==> u in stores || u in Harvest(links, p)
    ensures r == FirstSeen(stores + Harvest(links, p))
  {
    if links == [] then
      assert stores + Harvest(links, p) == stores;
      FirstSeenOfNoDups(stores);
      stores
    else
      var accepted := links[0] != "" && IsValidShopifyUrl(links[0], p);
      var next :=
        if accepted && CleanUrl(links[0], p) !in stores
        then stores + [CleanUrl(links[0], p)]
        else stores;
      AddLinksStep(stores, accepted, CleanUrl(links[0], p), Harvest(links[1..], p), next);
      AddLinks(links[1..], next, p)
  }

  /** One step of the page loop keeps the first-seen order of the whole harvest. */
  lemma AddLinksStep(stores: seq<string>, accepted: bool, c: string, rest: seq<string>, next: seq<string>)
    requires NoDups(stores)
    requires next == if accepted && c !in stores then stores + [c] else stores
    ensures FirstSeen(next + rest) == FirstSeen(stores + (if accepted then [c] + rest else rest))
  {
    FirstSeenOfNoDups(stores);
    if accepted {
      var sc := stores + [c];
      FirstSeenSnoc(stores, c);
      assert next == FirstSeen(sc);
      FirstSeenAppend(sc, rest);
      assert sc + rest == stores + ([c] + rest);
    } else {
      FirstSeenAppend(stores, rest);
      assert next == FirstSeen(stores);
    }
  }

  /** Every store URL harvested from the successful queries among `issued`. */
  function FoundSet(issued: seq<string>, search: string -> Option<seq<string>>, p: Platform): set<string>
  {
    if issued == [] then {}
    else
      (match search(issued[0])
       case None => {}
       case Some(links) => set u | u in Harvest(links, p))
      + FoundSet(issued[1..], search, p)
  }

  /** The store URLs harvested by the successful queries among `issued`, query by query, repeats included. */
  function Harvested(issued: seq<string>, search: string -> Option<seq<string>>, p: Platform): seq<string>
  {
    if issued == [] then []
    else
      (match search(issued[0])
       case None => []
       case Some(links) => Harvest(links, p))
      + Harvested(issued[1..], search, p)
  }

  /** The result URLs collected and the queries actually sent to the search engine. */
  datatype Discovered = Discovered(urls: seq<string>, issued: seq<string>)

  /**
    The query loop. A query is sent only while fewer than `maxResults` stores are held;
    a failing query (`search` returns `None`, the caught exception) adds nothing but
    never stops the loop, so the loop ends early only once the store list is full. The
    stores are duplicate-free and are exactly those found by the successful queries.
   */
  function Run(queries: seq<string>, stores: seq<string>, maxResults: int,
               search: string -> Option<seq<string>>, p: Platform): (r: Discovered)
    requires NoDups(stores)
    ensures NoDups(r.urls) && stores <= r.urls
    ensures r.issued <= queries
    ensures |stores| >= maxResults ==> r == Discovered(stores, [])
    ensures |r.issued| < |queries| ==> |r.urls| >= maxResults
    ensures forall u :: u in r.urls <==> u in stores || u in FoundSet(r.issued, search, p)
    decreases |queries|
  {
    if queries == [] || |stores| >= maxResults then Discovered(stores, [])
    else
      var next := match search(queries[0])
        case None => stores
        case Some(links) => AddLinks(links, stores, p);
      var rest := Run(queries[1..], next, maxResults, search, p);
      var issued := [queries[0]] + rest.issued;
      assert issued[0] == queries[0] && issued[1..] == rest.issued;
      Discovered(rest.urls, issued)
  }

  /**
    The query loop keeps the insertion order of the store `Set`: the stores come out in
    the order they were first seen, page after page.
   */
  lemma {:induction false} RunInOrder(queries: seq<string>, stores: seq<string>, maxResults: int,
                                      search: string -> Option<seq<string>>, p: Platform)
    requires NoDups(stores)
    ensures var r := Run(queries, stores, maxResults, search, p);
      r.urls == FirstSeen(stores + Harvested(r.issued, search, p))
    decreases |queries|
  {
    var r := Run(queries, stores, maxResults, search, p);
    if queries == [] || |stores| >= maxResults {
      assert stores + Harvested(r.issued, search, p) == stores;
      FirstSeenOfNoDups(stores);
    } else {
      var page := match search(queries[0])
        case None => []
        case Some(links) => Harvest(links, p);
      var next := match search(queries[0])
        case None => stores
        case Some(links) => AddLinks(links, stores, p);
      assert next == FirstSeen(stores + page) by {
        if search(queries[0]).None? {
          assert stores + page == stores;
          FirstSeenOfNoDups(stores);
        }
      }
      var rest := Run(queries[1..], next, maxResults, search, p);
      RunInOrder(queries[1..], next, maxResults, search, p);
      assert r.issued[0] == queries[0] && r.issued[1..] == rest.issued;
      assert Harvested(r.issued, search, p) == page + Harvested(rest.issued, search, p);
      FirstSeenAfter(stores, page, Harvested(rest.issued, search, p));
    }
  }

  /**
    `searchBingForShopifyStores(niche, maxResults)`, with the engine's result links for
    each query given by `search`: `None` is a request that threw.
   */
  function Discover(niche: string, maxResults: int, search: string -> Option<seq<string>>, p: Platform): (r: Discovered)
    ensures |r.urls| <= if maxResults < 0 then 0 else maxResults
    ensures maxResults <= 0 ==> r == Discovered([], [])
    ensures NoDups(r.urls)
    ensures r.issued <= Queries(niche) && |r.issued| <= 3
    ensures forall u :: u in r.urls ==> u in FoundSet(r.issued, search, p)
    ensures 0 <= maxResults && |r.issued| < 3 ==> |r.urls| == maxResults
    ensures |r.urls| < maxResults ==> forall u :: u in FoundSet(r.issued, search, p) ==> u in r.urls
    ensures r.urls == SliceTo(FirstSeen(Harvested(r.issued, search, p)), maxResults)
  {
    var run := Run(Queries(niche), [], maxResults, search, p);
    RunInOrder(Queries(niche), [], maxResults, search, p);
    assert [] + Harvested(run.issued, search, p) == Harvested(run.issued, search, p);
    Discovered(SliceTo(run.urls, maxResults), run.issued)
  }

  /**
    Overlapping results collapse: the number of URLs discovered is the number of
    distinct stores found, capped at `maxResults` (three pages with 4 distinct stores
    between them give 4 URLs, not 12).
   */
  lemma DiscoverCount(niche: string, maxResults: nat, search: string -> Option<seq<string>>, p: Platform)
    ensures var r := Discover(niche, maxResults, search, p);
      |r.urls| == if |FoundSet(r.issued, search, p)| < maxResults then |FoundSet(r.issued, search, p)| else maxResults
  {
    var run := Run(Queries(niche), [], maxResults, search, p);
    NoDupsCardinality(run.urls);
    assert (set u | u in run.urls) == FoundSet(run.issued, search, p);
  }
}

=== FILE: extractor.dfy ===
/**
  Content and contact extraction from a rendered page: the contact signals (email,
  contact page, Instagram profile) and the store's text content that the language
  model is later asked to judge.
 */
module Extractor {
  import opened Wrappers
  import opened Seqs
  import opened Strings
  import opened Host

  datatype ContactInfo = ContactInfo(email: Option<string>, contactPage: Option<string>, instagram: Option<string>)

  datatype StoreContent = StoreContent(
    title: string,
    description: string,
    headings: seq<string>,
    productDescriptions: seq<string>,
    bodyText: string)

  // ---------------------------------------------------------------- email

  /** The placeholder and tracking addresses that are never taken for the store's email. */
  predicate DeniedEmail(e: string) {
    Contains(e, "example.com") || Contains(e, "domain.com") || Contains(e, "sentry.io")
  }

  /** `emails[i]` is the first match that is not denied. */
  predicate FirstAllowedAt(emails: seq<string>, i: int) {
    0 <= i < |emails| && !DeniedEmail(emails[i]) && forall j :: 0 <= j < i ==> DeniedEmail(emails[j])
  }

  /**
    `validEmails[0] || null`: the first match that is not denied, unless that is empty.
    There is none exactly when every match is denied (or the first allowed one is empty).
   */
  function FirstAllowedEmail(emails: seq<string>): (r: Option<string>)
    ensures forall i :: FirstAllowedAt(emails, i) ==> r == if emails[i] == "" then None else Some(emails[i])
    ensures (forall i :: 0 <= i < |emails| ==> DeniedEmail(emails[i])) ==> r.None?
    ensures r.Some? ==> r.value in emails && r.value != "" && !DeniedEmail(r.value)
  {
    if emails == [] then None
    else if !DeniedEmail(emails[0]) then (if emails[0] == "" then None else Some(emails[0]))
    else
      var r := FirstAllowedEmail(emails[1..]);
      assert forall i :: FirstAllowedAt(emails, i) ==> i > 0 && FirstAllowedAt(emails[1..], i - 1);
      r
  }

  // ---------------------------------------------------------------- anchors

  /** The anchor's non-empty href (`href &&` in the loop), if any. */
  function Href(e: Element): Option<string> {
    if e.tag == "a" && Attr(e, "href").Some? && Attr(e, "href").value != "" then Attr(e, "href") else None
  }

  /** An anchor whose lowercased text or raw href mentions "contact". */
  predicate MentionsContact(e: Element) {
    Href(e).Some? && (Contains(Lower(e.text), "contact") || Contains(Href(e).value, "contact"))
  }

  /** A contact anchor whose href resolves against `base`. */
  predicate ResolvesContact(e: Element, base: string, p: Platform) {
    MentionsContact(e) && p.resolveUrl(Href(e).value, base).Some?
  }

  /** `els[i]` resolves and no later anchor does: it is the one whose resolution is kept. */
  predicate LastResolvingAt(els: seq<Element>, i: int, base: string, p: Platform) {
    0 <= i < |els| && ResolvesContact(els[i], base, p)
    && forall j :: i < j < |els| ==> !ResolvesContact(els[j], base, p)
  }

  /**
    The contact-page loop: every resolving contact anchor overwrites `found`, and an href
    that does not resolve is skipped silently. The outcome is the resolution of the LAST
    resolving anchor, or `found` when there is none.
   */
  function ContactLoop(els: seq<Element>, base: string, p: Platform, found: Option<string>): (r: Option<string>)
    ensures (forall i :: 0 <= i < |els| ==> !ResolvesContact(els[i], base, p)) ==> r == found
    ensures forall i :: LastResolvingAt(els, i, base, p) ==> r == p.resolveUrl(Href(els[i]).value, base)
  {
    if els == [] then found
    else
      var next := if ResolvesContact(els[0], base, p) then p.resolveUrl(Href(els[0]).value, base) else found;
      var r := ContactLoop(els[1..], base, p, next);
      assert forall i :: 0 < i < |els| ==> els[1..][i - 1] == els[i];
      assert forall i :: LastResolvingAt(els, i, base, p) && i > 0 ==> LastResolvingAt(els[1..], i - 1, base, p);
      r
  }

  /** An anchor selected by `a[href*="instagram.com"]`. */
  predicate IsInstagramLink(e: Element) {
    e.tag == "a" && Attr(e, "href").Some? && Contains(Attr(e, "href").value, "instagram.com")
  }

  /**
    The Instagram loop: only the first matching anchor's href is taken (`!info.instagram`);
    `found` is what the loop started with.
   */
  function InstagramLoop(els: seq<Element>, found: Option<string>): (r: Option<string>)
    ensures found.Some? ==> r == found
    ensures found.None? ==> forall i :: 0 <= i < |els| && IsInstagramLink(els[i])
                              && (forall j :: 0 <= j < i ==> !IsInstagramLink(els[j]))
                              ==> r == Attr(els[i], "href")
    ensures found.None? && (forall i :: 0 <= i < |els| ==> !IsInstagramLink(els[i])) ==> r.None?
  {
    if els == [] then found
    else
      var next := if IsInstagramLink(els[0]) && found.None? then Attr(els[0], "href") else found;
      InstagramLoop(els[1..], next)
  }

  /**
    `extractContactInfo(html, baseUrl)`: the first non-denied email of the body text, the
    last resolving contact anchor, and the first Instagram anchor. Nothing is stripped
    from the document first.
   */
  function ExtractContactInfo(html: Document, baseUrl: string, p: Platform): (r: ContactInfo)
    ensures r.email.Some? ==> r.email.value in p.emailMatches(BodyText(html.body, true))
                              && !DeniedEmail(r.email.value)
    ensures r.instagram.Some? ==> Contains(r.instagram.value, "instagram.com")
    ensures r.contactPage.Some? <==> exists i :: 0 <= i < |html.elements| && ResolvesContact(html.elements[i], baseUrl, p)
  {
    var emails := p.emailMatches(BodyText(html.body, true));
    InstagramSound(html.elements, None);
    ContactSound(html.elements, baseUrl, p, None);
    ContactInfo(FirstAllowedEmail(emails), ContactLoop(html.elements, baseUrl, p, None), InstagramLoop(html.elements, None))
  }

  lemma {:induction false} InstagramSound(els: seq<Element>, found: Option<string>)
    requires found.Some? ==> Contains(found.value, "instagram.com")
    ensures var r := InstagramLoop(els, found); r.Some? ==> Contains(r.value, "instagram.com")
  {
    if els != [] {
      var next := if IsInstagramLink(els[0]) && found.None? then Attr(els[0], "href") else found;
      InstagramSound(els[1..], next);
    }
  }

  lemma {:induction false} ContactSound(els: seq<Element>, base: string, p: Platform, found: Option<string>)
    requires found.None?
    ensures ContactLoop(els, base, p, found).Some? <==> exists i :: 0 <= i < |els| && ResolvesContact(els[i], base, p)
  {
    if els != [] {
      if ResolvesContact(els[0], base, p) {
        var i := |els| - 1;
        while i > 0 && !ResolvesContact(els[i], base, p)
          invariant 0 <= i < |els|
          invariant forall j :: i < j < |els| ==> !ResolvesContact(els[j], base, p)
        {
          i := i - 1;
        }
        assert LastResolvingAt(els, i, base, p);
      } else {
        ContactSound(els[1..], base, p, found);
        assert forall i :: 0 < i < |els| ==> els[i] == els[1..][i - 1];
      }
    }
  }

  // ---------------------------------------------------------------- content

  /** Elements left after the stripped ones are removed. */
  predicate Kept(e: Element) {
    !Removed(e)
  }

  predicate IsHeading(e: Element) {
    Kept(e) && e.tag in {"h1", "h2", "h3"}
  }

  /** An element selected by `.product-description, .product-details, [class*="product"]`; the last selector covers the other two. */
  predicate IsProductBlock(e: Element) {
    Kept(e) && Attr(e, "class").Some? && Contains(Attr(e, "class").value, "product")
  }

  predicate IsTitle(e: Element) {
    Kept(e) && e.tag == "title"
  }

  /** `$(elem).text().trim()` once the stripped elements are gone. */
  function TrimmedText(e: Element): string {
    Trim(e.keptText)
  }

  /** `text && text.length < 200`, the length in UTF-16 code units. */
  predicate KeepHeading(t: string) {
    t != "" && Length(t) < 200
  }

  /** `text && text.length > 50 && text.length < 1000`. */
  predicate KeepProduct(t: string) {
    t != "" && 50 < Length(t) < 1000
  }

  /** The text `text` gives each element, in document order. */
  function Texts(text: Element -> string, els: seq<Element>): (r: seq<string>)
    ensures |r| == |els|
    ensures forall i :: 0 <= i < |els| ==> r[i] == text(els[i])
  {
    if els == [] then [] else [text(els[0])] + Texts(text, els[1..])
  }

  /** `t` is the text of some selected element of `els`. */
  predicate TextOf(selected: Element -> bool, text: Element -> string, els: seq<Element>, t: string) {
    exists j :: 0 <= j < |els| && selected(els[j]) && text(els[j]) == t
  }

  lemma TextOfTail(selected: Element -> bool, text: Element -> string, els: seq<Element>, t: string)
    requires els != [] && TextOf(selected, text, els[1..], t)
    ensures TextOf(selected, text, els, t)
  {
    var j :| 0 <= j < |els[1..]| && selected(els[1..][j]) && text(els[1..][j]) == t;
    assert els[j + 1] == els[1..][j];
  }

  /**
    One `.each` loop over a selection: the text of every element that `selected` picks,
    in document order, pushed when `keep` accepts it. Every pushed text is kept by `keep`,
    every selected element whose text `keep` accepts is pushed, and the order is the
    document's.
   */
  function Collect(selected: Element -> bool, keep: string -> bool, text: Element -> string, els: seq<Element>): (r: seq<string>)
    ensures forall i :: 0 <= i < |r| ==> keep(r[i])
    ensures forall i :: 0 <= i < |r| ==> TextOf(selected, text, els, r[i])
    ensures forall i :: 0 <= i < |els| && selected(els[i]) && keep(text(els[i])) ==> text(els[i]) in r
    ensures Subseq(r, Texts(text, els))
  {
    if els == [] then []
    else
      var rest := Collect(selected, keep, text, els[1..]);
      assert forall i :: 0 < i < |els| ==> els[i] == els[1..][i - 1];
      assert Texts(text, els) == [text(els[0])] + Texts(text, els[1..]);
      SubseqCons(rest, Texts(text, els[1..]), text(els[0]));
      forall i | 0 <= i < |rest|
        ensures TextOf(selected, text, els, rest[i])
      {
        TextOfTail(selected, text, els, rest[i]);
      }
      assert TextOf(selected, text, els, text(els[0])) <== selected(els[0]);
      if selected(els[0]) && keep(text(els[0])) then [text(els[0])] + rest else rest
  }

  /** The loop over a concatenation of element lists pushes the texts of the first, then those of the second. */
  lemma {:induction false} CollectAppend(selected: Element -> bool, keep: string -> bool, text: Element -> string,
                                         a: seq<Element>, b: seq<Element>)
    ensures Collect(selected, keep, text, a + b) == Collect(selected, keep, text, a) + Collect(selected, keep, text, b)
  {
    if a == [] {
      assert a + b == b;
    } else {
      assert (a + b)[0] == a[0] && (a + b)[1..] == a[1..] + b;
      CollectAppend(selected, keep, text, a[1..], b);
    }
  }

  /** On one element the loop pushes its text once if it is selected and kept, and nothing otherwise. */
  lemma CollectOne(selected: Element -> bool, keep: string -> bool, text: Element -> string, e: Element)
    ensures Collect(selected, keep, text, [e]) == if selected(e) && keep(text(e)) then [text(e)] else []
  {
    assert [e][1..] == [];
  }

  /** The heading loop: non-empty trimmed `h1`-`h3` texts shorter than 200 code units, in document order. */
  function Headings(els: seq<Element>): (r: seq<string>)
    ensures forall i :: 0 <= i < |r| ==> r[i] != "" && Length(r[i]) < 200
    ensures forall i :: 0 <= i < |r| ==> TextOf(IsHeading, TrimmedText, els, r[i])
    ensures forall i :: 0 <= i < |els| && IsHeading(els[i]) && KeepHeading(TrimmedText(els[i]))
                        ==> TrimmedText(els[i]) in r
    ensures Subseq(r, Texts(TrimmedText, els))
  {
    Collect(IsHeading, KeepHeading, TrimmedText, els)
  }

  /** The product-description loop: trimmed product-block texts strictly between 50 and 1000 code units long, in document order. */
  function ProductDescriptions(els: seq<Element>): (r: seq<string>)
    ensures forall i :: 0 <= i < |r| ==> 50 < Length(r[i]) < 1000
    ensures forall i :: 0 <= i < |r| ==> TextOf(IsProductBlock, TrimmedText, els, r[i])
    ensures forall i :: 0 <= i < |els| && IsProductBlock(els[i]) && KeepProduct(TrimmedText(els[i]))
                        ==> TrimmedText(els[i]) in r
    ensures Subseq(r, Texts(TrimmedText, els))
  {
    Collect(IsProductBlock, KeepProduct, TrimmedText, els)
  }

  /**
    The heading and product loops push one text per matching element, repeats included:
    over a concatenation they give the first part's texts then the second's, and a single
    element contributes its text exactly when it matches.
   */
  lemma LoopsAppend(a: seq<Element>, b: seq<Element>)
    ensures Headings(a + b) == Headings(a) + Headings(b)
    ensures ProductDescriptions(a + b) == ProductDescriptions(a) + ProductDescriptions(b)
  {
    CollectAppend(IsHeading, KeepHeading, TrimmedText, a, b);
    CollectAppend(IsProductBlock, KeepProduct, TrimmedText, a, b);
  }

  lemma LoopsOne(e: Element)
    ensures Headings([e]) == if IsHeading(e) && KeepHeading(TrimmedText(e)) then [TrimmedText(e)] else []
    ensures ProductDescriptions([e]) == if IsProductBlock(e) && KeepProduct(TrimmedText(e)) then [TrimmedText(e)] else []
  {
    CollectOne(IsHeading, KeepHeading, TrimmedText, e);
    CollectOne(IsProductBlock, KeepProduct, TrimmedText, e);
  }

  /** The bound on the body text kept for analysis. */
  const BodyLimit: nat := 3000

  lemma VisiblePrefix(a: string, b: string)
    requires a <= b
    ensures Visible(a) <= Visible(b)
  {
    assert b == a + b[|a|..];
    VisibleAppend(a, b[|a|..]);
  }

  /**
    `text.replace(/\s+/g, ' ').trim().substring(0, limit)`: the words of `text` joined by
    single blanks, cut to the longest prefix that fits in `limit` UTF-16 code units (the
    next character would not fit). So it has no whitespace but single spaces and none at
    the start, its visible characters are the first visible characters of `text`, and it
    is the whole joined text when that fits.
   */
  function CleanText(text: string, limit: nat): (r: string)
    ensures r <= Join(Words(text), " ")
    ensures Length(r) <= limit
    ensures r != Join(Words(text), " ") ==> Length(r) + Units(Join(Words(text), " ")[|r|]) > limit
    ensures Length(Join(Words(text), " ")) <= limit ==> r == Join(Words(text), " ")
    ensures OnlyBlank(r) && NoSpaceRuns(r)
    ensures r == [] || !IsSpace(r[0])
    ensures Visible(r) <= Visible(text)
    ensures Length(text) <= limit ==> Visible(r) == Visible(text)
  {
    CleanTextFacts(text, limit);
    CleanJoin(text, limit);
    Truncate(Trim(Collapse(text)), limit)
  }

  /** The cleaned text is the longest prefix of the blank-joined words that fits. */
  lemma CleanJoin(text: string, limit: nat)
    ensures var j := Join(Words(text), " ");
      var r := Truncate(Trim(Collapse(text)), limit);
      && r <= j
      && (r != j ==> Length(r) + Units(j[|r|]) > limit)
      && (Length(j) <= limit ==> r == j)
  {
    CollapseTrimJoin(text);
  }

  lemma CleanTextFacts(text: string, limit: nat)
    ensures var r := Truncate(Trim(Collapse(text)), limit);
      && OnlyBlank(r) && NoSpaceRuns(r)
      && (r == [] || !IsSpace(r[0]))
      && Visible(r) <= Visible(text)
      && (Length(text) <= limit ==> Visible(r) == Visible(text))
  {
    CleanShape(text, limit);
    CleanVisible(text, limit);
  }

  /** The cleaned text has only single blanks and does not start with one. */
  lemma CleanShape(text: string, limit: nat)
    ensures var r := Truncate(Trim(Collapse(text)), limit);
      && OnlyBlank(r) && NoSpaceRuns(r)
      && (r == [] || !IsSpace(r[0]))
  {
    var c := Collapse(text);
    var t := Trim(c);
    var r := Truncate(t, limit);
    TrimSliceBounds(c);
    SliceShape(c, TrimCut(c), r);
    TrimFirst(c);
    if r != [] {
      assert r[0] == t[0];
    }
  }

  /** The cleaned text keeps a prefix of the visible characters, all of them when the text fits. */
  lemma CleanVisible(text: string, limit: nat)
    ensures var r := Truncate(Trim(Collapse(text)), limit);
      && Visible(r) <= Visible(text)
      && (Length(text) <= limit ==> Visible(r) == Visible(text))
  {
    var c := Collapse(text);
    var t := Trim(c);
    var r := Truncate(t, limit);
    TrimSpec(c);
    CollapseKeepsVisible(text);
    VisiblePrefix(r, t);
    if Length(text) <= limit {
      CleanFits(text, limit);
    }
  }

  /** Text that fits within the limit is not cut once collapsed and trimmed. */
  lemma CleanFits(text: string, limit: nat)
    requires Length(text) <= limit
    ensures Truncate(Trim(Collapse(text)), limit) == Trim(Collapse(text))
  {
    CollapseLength(text);
    TrimLength(Collapse(text));
  }

  /**
    `extractStoreContent(html)`, after `$('script, style, nav, footer, header').remove()`:
    the trimmed title, the description meta tag's content or "", the kept headings and
    product descriptions, and the body text cleaned to at most 3000 characters.
   */
  function ExtractStoreContent(html: Document): (r: StoreContent)
    ensures r.title == Trim(TitleText(html)) && Words(r.title) == Words(TitleText(html))
    ensures r.title == [] || (!IsSpace(r.title[0]) && !IsSpace(r.title[|r.title| - 1]))
    ensures r.description == MetaContent(Filter(Kept, html.elements), "description").GetOr("")
    ensures forall i :: 0 <= i < |r.headings| ==> r.headings[i] != "" && Length(r.headings[i]) < 200
    ensures forall i :: 0 <= i < |r.productDescriptions| ==> 50 < Length(r.productDescriptions[i]) < 1000
    ensures Length(r.bodyText) <= BodyLimit && OnlyBlank(r.bodyText) && NoSpaceRuns(r.bodyText)
    ensures r.headings == Headings(html.elements) && r.productDescriptions == ProductDescriptions(html.elements)
    ensures Visible(r.bodyText) <= Visible(BodyText(html.body, false))
    ensures r.bodyText == CleanText(BodyText(html.body, false), BodyLimit)
  {
    var title := TitleText(html);
    TrimFirst(title);
    TrimWords(title);
    StoreContent(
      Trim(title),
      MetaContent(Filter(Kept, html.elements), "description").GetOr(""),
      Headings(html.elements),
      ProductDescriptions(html.elements),
      CleanText(BodyText(html.body, false), BodyLimit))
  }

  /** `$('title').text()`: the texts of the title elements, concatenated. */
  function TitleText(html: Document): string {
    Concat(Map(TrimlessText, Filter(IsTitle, html.elements)))
  }

  /** An element's text as cheerio's `.text()` returns it once the stripped elements are gone. */
  function TrimlessText(e: Element): string {
    e.keptText
  }
}

=== FILE: host.dfy ===
/**
  What the pipeline takes from its host environment without reimplementing it: the
  WHATWG URL parser, relative-URL resolution, the email regular expression, number
  parsing and display, and HTML as cheerio presents it.
 */
module Host {
  import opened Wrappers
  import opened Strings

  /** The parts of a parsed `URL` the pipeline reads (`protocol` includes the colon). */
  datatype Url = Url(protocol: string, hostname: string, port: string, pathname: string, search: string, hash: string)

  /**
    The host's capabilities, kept uninterpreted:
    - `parseUrl(u)` is `new URL(u)`, `None` when the constructor throws;
    - `resolveUrl(href, base)` is `new URL(href, base).href`, `None` when it throws;
    - `emailMatches(text)` is `text.match(/[a-zA-Z0-9._%+-]+@[a-zA-Z0-9.-]+\.[a-zA-Z]{2,}/g)`,
      every match in order (empty for `null`);
    - `parseNumber(s)` is `parseFloat(s)`, `None` for `NaN`;
    - `showNumber(x)` is the string conversion of a number.
   */
  datatype Platform = Platform(
    parseUrl: string -> Option<Url>,
    resolveUrl: (string, string) -> Option<string>,
    emailMatches: string -> seq<string>,
    parseNumber: string -> Option<real>,
    showNumber: real -> string)

  /**
    One element of a parsed document, in document order. `text` is its whole text
    content; `keptText` is its text content once every `script`, `style`, `nav`,
    `footer` and `header` element inside it is removed (the same as `text` when it has
    none); `stripped` records that the element itself lies inside such an element.
   */
  datatype Element = Element(tag: string, attrs: map<string, string>, text: string, keptText: string, stripped: bool)

  /** One text node of `<body>`, in document order, and whether it lies inside a stripped element. */
  datatype TextRun = TextRun(text: string, stripped: bool)

  /** An HTML document: its source text and its parsed elements and body text. */
  datatype Document = Document(source: string, elements: seq<Element>, body: seq<TextRun>)

  /** The elements `$('script, style, nav, footer, header').remove()` takes away. */
  predicate Removed(e: Element) {
    e.tag in {"script", "style", "nav", "footer", "header"} || e.stripped
  }

  /** `$(e).attr(name)`. */
  function Attr(e: Element, name: string): Option<string> {
    if name in e.attrs then Some(e.attrs[name]) else None
  }

  /** `$(sel).attr('content')` for `meta[name="<name>"]`: the content of the FIRST such meta element. */
  function MetaContent(els: seq<Element>, name: string): Option<string>
  {
    if els == [] then None
    else if els[0].tag == "meta" && Attr(els[0], "name") == Some(name) then Attr(els[0], "content")
    else MetaContent(els[1..], name)
  }

  /** `$('body').text()`, with or without the stripped elements. */
  function BodyText(runs: seq<TextRun>, withStripped: bool): string
  {
    if runs == [] then ""
    else (if withStripped || !runs[0].stripped then runs[0].text else "") + BodyText(runs[1..], withStripped)
  }

  /** The page a headless browser returns for a URL. */
  datatype RenderedPage = RenderedPage(html: Document, title: string, url: string)
}

=== FILE: js.dfy ===
/**
  The JavaScript values that a parsed JSON reply can put in a field, with the
  truthiness rules that the `||` defaults of the analyzer depend on and the string
  conversion that template literals apply.
 */
module Js {
  import Strings

  /**
    A field of a parsed reply; `Undefined` is a missing field. An array keeps its items;
    the members of an object play no part in the pipeline, which only tests an object
    for truthiness and converts it to text.
   */
  datatype Value = Undefined | Null | Bool(b: bool) | Num(n: real) | NaN | Str(s: string) | Arr(items: seq<Value>) | Obj

  /**
    JavaScript truthiness: `false`, `0`, `NaN`, `""`, `null` and `undefined` are falsy;
    every array and every object is truthy, even an empty one.
   */
  predicate Truthy(v: Value) {
    match v
    case Bool(b) => b
    case Num(n) => n != 0.0
    case Str(s) => s != ""
    case Arr(_) => true
    case Obj => true
    case _ => false
  }

  /** `a || b`: `a` itself when it is truthy, otherwise `b`. */
  function Or(a: Value, b: Value): Value {
    if Truthy(a) then a else b
  }

  /**
    `${v}` in a template literal. Number formatting is the host's `show` function,
    since the model has no floating-point display. An array is its items joined by
    commas, with `null` and `undefined` items written as empty (`Array.prototype.join`),
    and an object is "[object Object]".
   */
  function ToText(v: Value, show: real -> string): string
    decreases v, 0
  {
    match v
    case Undefined => "undefined"
    case Null => "null"
    case Bool(b) => if b then "true" else "false"
    case Num(n) => show(n)
    case NaN => "NaN"
    case Str(s) => s
    case Arr(items) =>
      Strings.Join(seq(|items|, i requires 0 <= i < |items| => ItemText(items[i], show)), ",")
    case Obj => "[object Object]"
  }

  /** An array item as `join` writes it: `null` and `undefined` are empty. */
  function ItemText(x: Value, show: real -> string): string
    decreases x, 1
  {
    if x.Null? || x.Undefined? then "" else ToText(x, show)
  }

  /**
    How template literals write the reply shapes that are not plain strings: a
    two-item array becomes its items joined by a comma, a missing item is empty, a
    one-item array is its item's text, and an object is "[object Object]" however
    many members it has.
   */
  lemma ToTextScenarios(show: real -> string)
    ensures ToText(Arr([Str("a"), Str("b")]), show) == "a,b"
    ensures ToText(Arr([Null, Str("b")]), show) == ",b"
    ensures ToText(Arr([Num(7.0)]), show) == show(7.0)
    ensures ToText(Arr([]), show) == ""
    ensures ToText(Obj, show) == "[object Object]"
    ensures Truthy(Arr([])) && Truthy(Obj)
  {
    var ab := [Str("a"), Str("b")];
    assert seq(2, i requires 0 <= i < 2 => ItemText(ab[i], show)) == ["a", "b"];
    assert Strings.Join(["a", "b"], ",") == "a" + "," + Strings.Join(["b"], ",");
    var nb := [Null, Str("b")];
    assert seq(2, i requires 0 <= i < 2 => ItemText(nb[i], show)) == ["", "b"];
    assert Strings.Join(["", "b"], ",") == "" + "," + Strings.Join(["b"], ",");
    var n7 := [Num(7.0)];
    assert seq(1, i requires 0 <= i < 1 => ItemText(n7[i], show)) == [show(7.0)];
  }
}

=== FILE: scrape_store.dfy ===
/**
  The scrape-store endpoint for one candidate URL: validate it, fetch the rendered page
  through the shared browser session, detect the platform, return early for other
  platforms, otherwise extract contact signals and content and truncate them.
 */
module ScrapeStore {
  import opened Wrappers
  import opened Seqs
  import opened Strings
  import Js
  import opened Host
  import opened Browser
  import opened Detector
  import opened Extractor

  /** The POST body: the `url` field of the parsed JSON, or the message `JSON.parse` threw. */
  datatype ScrapeRequest = Unparsable(message: string) | ScrapeRequest(url: Js.Value)

  datatype ScrapeResponse =
    | BadRequest(error: string)
    | NotShopify(url: string)
    | Scraped(url: string, confidence: real, contactInfo: ContactInfo, storeContent: StoreContent)
    | ServerError(error: string, message: string)
  {
    function StatusCode(): int {
      match this
      case BadRequest(_) => 400
      case ServerError(_, _) => 500
      case _ => 200
    }
  }

  /** The bounds applied to the content returned to callers. */
  const MaxHeadings: nat := 10
  const MaxProducts: nat := 3
  const MaxBodyText: nat := 2000

  /**
    The content as returned: the first 10 headings, the first 3 product descriptions and
    the longest prefix of the body text that fits in 2000 UTF-16 code units; all of each
    when it is short enough.
   */
  function Truncated(c: StoreContent): (r: StoreContent)
    ensures |r.headings| <= MaxHeadings && r.headings <= c.headings
    ensures |r.headings| == if |c.headings| < MaxHeadings then |c.headings| else MaxHeadings
    ensures |r.productDescriptions| <= MaxProducts && r.productDescriptions <= c.productDescriptions
    ensures |r.productDescriptions| == if |c.productDescriptions| < MaxProducts then |c.productDescriptions| else MaxProducts
    ensures Length(r.bodyText) <= MaxBodyText && r.bodyText <= c.bodyText
    ensures Length(c.bodyText) <= MaxBodyText ==> r.bodyText == c.bodyText
    ensures r.bodyText != c.bodyText ==> Length(r.bodyText) + Units(c.bodyText[|r.bodyText|]) > MaxBodyText
    ensures r.title == c.title && r.description == c.description
  {
    StoreContent(c.title, c.description, SliceTo(c.headings, MaxHeadings),
                 SliceTo(c.productDescriptions, MaxProducts), Truncate(c.bodyText, MaxBodyText))
  }

  /** The url field is a non-empty string (`url && typeof url === 'string'`). */
  predicate IsUrlText(v: Js.Value) {
    v.Str? && v.s != ""
  }

  /** The request passes validation: a non-empty string url that parses. */
  predicate Validated(req: ScrapeRequest, p: Platform) {
    req.ScrapeRequest? && IsUrlText(req.url) && p.parseUrl(req.url.s).Some?
  }

  /** The outcome of fetching the requested url with the singleton's session. */
  function Fetch(reg: Registry, req: ScrapeRequest, env: BrowserEnv): Result<RenderedPage>
    requires req.ScrapeRequest? && req.url.Str?
  {
    ScrapePage(GetBrowserScraper(reg).1.session, req.url.s, env).1
  }

  /**
    The handler. The singleton scraper is obtained first; a missing or non-string url
    gives 400 "URL is required" and an unparsable one 400 "Invalid URL format", both
    before any page is opened; a thrown error (a body that is not JSON, a failed fetch)
    gives 500 "Scraping failed" with its message. Detection and contact-link resolution
    use the REQUESTED url, not the final one after redirects; a page of another platform
    is answered with `success: false` and nothing is extracted; the reported confidence
    is the detector's.
   */
  function HandleScrape(reg: Registry, req: ScrapeRequest, env: BrowserEnv, p: Platform): (r: (Registry, ScrapeResponse))
    ensures r.0.instance.Some?
    ensures req.Unparsable? ==> r.1 == ServerError("Scraping failed", req.message)
    ensures req.ScrapeRequest? && !IsUrlText(req.url) ==> r.1 == BadRequest("URL is required")
    ensures req.ScrapeRequest? && IsUrlText(req.url) && p.parseUrl(req.url.s).None?
            ==> r.1 == BadRequest("Invalid URL format")
    ensures r.1.BadRequest? || req.Unparsable? ==> r.0 == GetBrowserScraper(reg).0
    ensures r.1.NotShopify? ==> env.navigation.Done? && r.1.url == req.url.s
                                && !DetectShopify(env.navigation.value.html, req.url.s).isShopify
    ensures r.1.Scraped? ==> (env.navigation.Done? && r.1.url == req.url.s
            && var html := env.navigation.value.html;
               && DetectShopify(html, req.url.s).isShopify
               && r.1.confidence == DetectShopify(html, req.url.s).confidence
               && r.1.contactInfo == ExtractContactInfo(html, req.url.s, p)
               && r.1.storeContent == Truncated(ExtractStoreContent(html)))
    ensures req.ScrapeRequest? && IsUrlText(req.url) && p.parseUrl(req.url.s).Some? && env.navigation.Thrown?
            && r.0.instance.value.session.pagesOpened > GetBrowserScraper(reg).1.session.pagesOpened
            ==> r.1 == ServerError("Scraping failed", "Failed to scrape " + req.url.s + ": " + env.navigation.message)
    ensures Validated(req, p) ==> (r.1.ServerError? <==> Fetch(reg, req, env).Thrown?)
    ensures Validated(req, p) && Fetch(reg, req, env).Thrown?
            ==> r.1 == ServerError("Scraping failed", Fetch(reg, req, env).message)
    ensures Validated(req, p) && Fetch(reg, req, env).Done?
            ==> (r.1.Scraped? <==> DetectShopify(Fetch(reg, req, env).value.html, req.url.s).isShopify)
                && (r.1.Scraped? || r.1 == NotShopify(req.url.s))
    ensures RegistryValid(reg) ==> RegistryValid(r.0)
  {
    var (reg1, scraper) := GetBrowserScraper(reg);
    match req
    case Unparsable(m) => (reg1, ServerError("Scraping failed", m))
    case ScrapeRequest(url) =>
      if !IsUrlText(url) then (reg1, BadRequest("URL is required"))
      else if p.parseUrl(url.s).None? then (reg1, BadRequest("Invalid URL format"))
      else
        var (session, fetched) := ScrapePage(scraper.session, url.s, env);
        var reg2 := Store(reg1, session);
        match fetched
        case Thrown(m) => (reg2, ServerError("Scraping failed", m))
        case Done(page) =>
          var detection := DetectShopify(page.html, url.s);
          if !detection.isShopify then (reg2, NotShopify(url.s))
          else
            var contact := ExtractContactInfo(page.html, url.s, p);
            var content := ExtractStoreContent(page.html);
            (reg2, Scraped(url.s, detection.confidence, contact, Truncated(content)))
  }

  /** The final URL after redirects never influences the answer: only the requested one does. */
  lemma FinalUrlIrrelevant(reg: Registry, req: ScrapeRequest, env: BrowserEnv, p: Platform, finalUrl: string)
    requires env.navigation.Done?
    ensures var env' := env.(navigation := Done(env.navigation.value.(url := finalUrl)));
      HandleScrape(reg, req, env', p) == HandleScrape(reg, req, env, p)
  {
    var env' := env.(navigation := Done(env.navigation.value.(url := finalUrl)));
    if req.ScrapeRequest? && IsUrlText(req.url) && p.parseUrl(req.url.s).Some? {
      var scraper := GetBrowserScraper(reg).1;
      ScrapePageSameHtml(scraper.session, req.url.s, env, env');
    }
  }

  /** Two navigations that load the same markup leave the session and the markup seen alike. */
  lemma ScrapePageSameHtml(s: Session, url: string, env: BrowserEnv, env': BrowserEnv)
    requires env.navigation.Done? && env'.navigation.Done?
    requires env.navigation.value.html == env'.navigation.value.html
    requires env' == env.(navigation := env'.navigation)
    ensures ScrapePage(s, url, env').0 == ScrapePage(s, url, env).0
    ensures ScrapePage(s, url, env').1.Done? == ScrapePage(s, url, env).1.Done?
    ensures ScrapePage(s, url, env).1.Done? ==>
      ScrapePage(s, url, env').1.value.html == ScrapePage(s, url, env).1.value.html
    ensures ScrapePage(s, url, env).1.Thrown? ==> ScrapePage(s, url, env').1 == ScrapePage(s, url, env).1
  {
  }

  /** Every page the handler opens is closed again, whatever the outcome. */
  lemma NoPageLeak(reg: Registry, req: ScrapeRequest, env: BrowserEnv, p: Platform)
    requires RegistryValid(reg)
    ensures var (reg', _) := HandleScrape(reg, req, env, p);
      reg'.instance.value.session.pagesOpened == reg'.instance.value.session.pagesClosed
  {
  }
}

=== FILE: search_stores.dfy ===
/**
  The search-stores endpoint: validate the niche, bound the number of results, run
  discovery and wrap each URL found as a pending candidate.
 */
module SearchStores {
  import opened Wrappers
  import opened Strings
  import Js
  import opened Host
  import opened Discovery

  /**
    The `maxResults` field of the body: absent, `null` (what a `NaN` becomes in JSON), or
    an integer.
   */
  datatype Limit = Absent | NullLimit | Given(n: int)

  /** The POST body: `niche` and `maxResults` of the parsed JSON, or the message `JSON.parse` threw. */
  datatype SearchRequest = Unparsable(message: string) | SearchRequest(niche: Js.Value, maxResults: Limit)

  datatype PendingStore = PendingStore(url: string, status: string)

  datatype SearchResponse =
    | Found(count: int, stores: seq<PendingStore>)
    | BadRequest(error: string)
    | ServerError(error: string, message: string)
  {
    function StatusCode(): int {
      match this
      case Found(_, _) => 200
      case BadRequest(_) => 400
      case ServerError(_, _) => 500
    }
  }

  const DefaultMaxResults: int := 20
  const MaxResultsCap: int := 50

  /** The niches the endpoint expects; any other is only logged as unusual. */
  const KnownNiches: seq<string> := ["fashion", "beauty", "supplements", "skincare"]

  predicate IsKnownNiche(niche: string) {
    exists i :: 0 <= i < |KnownNiches| && Contains(Lower(niche), KnownNiches[i])
  }

  /**
    `Math.min(maxResults, 50)` where the destructuring default 20 replaces only an absent
    field: `null` is not replaced and counts as 0.
   */
  function EffectiveMax(maxResults: Limit): (r: int)
    ensures r <= MaxResultsCap
    ensures maxResults.Absent? ==> r == DefaultMaxResults
    ensures maxResults.NullLimit? ==> r == 0
    ensures maxResults.Given? ==> r == if maxResults.n <= MaxResultsCap then maxResults.n else MaxResultsCap
  {
    var m := match maxResults
      case Absent => DefaultMaxResults
      case NullLimit => 0
      case Given(n) => n;
    if m < MaxResultsCap then m else MaxResultsCap
  }

  /**
    The handler. A missing, empty or non-string niche gives 400 "Niche is required"; any
    non-empty string niche is searched, known or not; a body that is not JSON gives 500
    "Search failed". On success `count` is the number of stores, at most 50 (20 without
    `maxResults`), and each discovered URL is wrapped, in order, with status "pending".
   */
  function HandleSearch(req: SearchRequest, search: string -> Option<seq<string>>, p: Platform): (r: SearchResponse)
    ensures req.Unparsable? ==> r == ServerError("Search failed", req.message)
    ensures req.SearchRequest? ==> (r.BadRequest? <==> !(req.niche.Str? && req.niche.s != ""))
    ensures req.SearchRequest? ==> (r.Found? <==> req.niche.Str? && req.niche.s != "")
    ensures r.BadRequest? ==> r.error == "Niche is required"
    ensures r.Found? ==> r.count == |r.stores| <= MaxResultsCap
    ensures r.Found? && req.maxResults.Absent? ==> r.count <= DefaultMaxResults
    ensures r.Found? && req.maxResults.NullLimit? ==> r.count == 0
    ensures r.Found? ==> var urls := Discover(req.niche.s, EffectiveMax(req.maxResults), search, p).urls;
      |r.stores| == |urls| && forall i :: 0 <= i < |urls| ==> r.stores[i] == PendingStore(urls[i], "pending")
  {
    match req
    case Unparsable(m) => ServerError("Search failed", m)
    case SearchRequest(niche, maxResults) =>
      if !(niche.Str? && niche.s != "") then BadRequest("Niche is required")
      else
        var stores := Discover(niche.s, EffectiveMax(maxResults), search, p).urls;
        Found(|stores|, seq(|stores|, i requires 0 <= i < |stores| => PendingStore(stores[i], "pending")))
  }

  /** An unusual niche is searched exactly like a known one: the check only logs a warning. */
  lemma UnknownNicheNotRejected(niche: string, maxResults: Limit, search: string -> Option<seq<string>>, p: Platform)
    requires niche != "" && !IsKnownNiche(niche)
    ensures HandleSearch(SearchRequest(Js.Str(niche), maxResults), search, p).Found?
  {
  }
}

=== FILE: seqs.dfy ===
/** Order-preserving sequence operations used throughout the pipeline. */
module Seqs {

  /** `a` can be obtained from `b` by deleting elements, keeping the order of the rest. */
  predicate Subseq<T(==)>(a: seq<T>, b: seq<T>)
    decreases |b|
  {
    if a == [] then true
    else if b == [] then false
    else if a[0] == b[0] then Subseq(a[1..], b[1..])
    else Subseq(a, b[1..])
  }

  /** No element occurs twice. */
  predicate NoDups<T(==)>(s: seq<T>) {
    forall i, j :: 0 <= i < j < |s| ==> s[i] != s[j]
  }

  /** JavaScript's `Array.prototype.filter`: the elements satisfying `p`, in their original order. */
  function Filter<T(==)>(p: T -> bool, s: seq<T>): (r: seq<T>)
    ensures |r| <= |s|
    ensures forall i :: 0 <= i < |r| ==> p(r[i]) && r[i] in s
    ensures forall i :: 0 <= i < |s| && p(s[i]) ==> s[i] in r
    ensures Subseq(r, s)
  {
    if s == [] then []
    else if p(s[0]) then [s[0]] + Filter(p, s[1..])
    else Filter(p, s[1..])
  }

  /** Filtering a concatenation filters each part. */
  lemma {:induction false} FilterAppend<T>(p: T -> bool, a: seq<T>, b: seq<T>)
    ensures Filter(p, a + b) == Filter(p, a) + Filter(p, b)
  {
    if a != [] {
      assert (a + b)[1..] == a[1..] + b;
      FilterAppend(p, a[1..], b);
    } else {
      assert a + b == b;
    }
  }

  /** JavaScript's `Array.prototype.map`. */
  function Map<A, B>(f: A -> B, s: seq<A>): (r: seq<B>)
    ensures |r| == |s|
    ensures forall i :: 0 <= i < |s| ==> r[i] == f(s[i])
  {
    seq(|s|, i requires 0 <= i < |s| => f(s[i]))
  }

  /** `s.slice(0, end)` in JavaScript: a negative `end` counts back from the end of `s`. */
  function SliceTo<T>(s: seq<T>, end: int): (r: seq<T>)
    ensures r <= s
    ensures 0 <= end ==> |r| == if end < |s| then end else |s|
    ensures end < 0 ==> |r| == if |s| + end < 0 then 0 else |s| + end
  {
    if end >= 0 then (if end < |s| then s[..end] else s)
    else if |s| + end < 0 then []
    else s[..|s| + end]
  }

  /** A sequence without repetitions has as many elements as the set of its elements. */
  lemma {:induction false} NoDupsCardinality<T>(s: seq<T>)
    requires NoDups(s)
    ensures |set x | x in s| == |s|
  {
    if s != [] {
      var rest := s[1..];
      assert NoDups(rest);
      NoDupsCardinality(rest);
      var tail := set x | x in rest;
      assert (set x | x in s) == {s[0]} + tail;
      assert s[0] !in tail;
    }
  }

  /** Putting an element in front of `b` keeps every subsequence of `b` a subsequence. */
  lemma {:induction false} SubseqCons<T>(a: seq<T>, b: seq<T>, x: T)
    requires Subseq(a, b)
    ensures Subseq(a, [x] + b)
    decreases |b|, 1
  {
    if a != [] && a[0] == x {
      SubseqTail(a, b);
      assert ([x] + b)[1..] == b;
    }
  }

  /** Dropping the first element of a subsequence keeps it a subsequence. */
  lemma {:induction false} SubseqTail<T>(a: seq<T>, b: seq<T>)
    requires a != [] && Subseq(a, b)
    ensures Subseq(a[1..], b)
    decreases |b|, 0
  {
    if a[0] == b[0] {
      if a[1..] != [] {
        SubseqCons(a[1..], b[1..], b[0]);
        assert [b[0]] + b[1..] == b;
      }
    } else {
      SubseqTail(a, b[1..]);
      if a[1..] != [] {
        SubseqCons(a[1..], b[1..], b[0]);
        assert [b[0]] + b[1..] == b;
      }
    }
  }

  /** `filter` keeps the whole sequence exactly when every element satisfies the test. */
  lemma {:induction false} FilterKeepsAll<T>(p: T -> bool, s: seq<T>)
    ensures |Filter(p, s)| == |s| <==> forall i :: 0 <= i < |s| ==> p(s[i])
  {
    if s != [] {
      FilterKeepsAll(p, s[1..]);
      if p(s[0]) {
        assert forall i :: 1 <= i < |s| ==> s[i] == s[1..][i - 1];
      }
    }
  }

  /**
    The distinct elements of `s` in the order they first occur: what a JavaScript `Set`
    built by adding the elements of `s` one by one iterates over.
   */
  function FirstSeen<T(==)>(s: seq<T>): seq<T>
  {
    if s == [] then []
    else if s[|s| - 1] in s[..|s| - 1] then FirstSeen(s[..|s| - 1])
    else FirstSeen(s[..|s| - 1]) + [s[|s| - 1]]
  }

  /** The first-seen order holds every element of `s` exactly once, and nothing else. */
  lemma {:induction false} FirstSeenSpec<T>(s: seq<T>)
    ensures NoDups(FirstSeen(s))
    ensures forall i :: 0 <= i < |FirstSeen(s)| ==> FirstSeen(s)[i] in s
    ensures forall i :: 0 <= i < |s| ==> s[i] in FirstSeen(s)
  {
    if s != [] {
      var init := s[..|s| - 1];
      FirstSeenSpec(init);
      assert forall i :: 0 <= i < |s| - 1 ==> s[i] == init[i];
    }
  }

  /** Adding one more element to the set: it goes at the end unless it is already there. */
  lemma FirstSeenSnoc<T>(s: seq<T>, x: T)
    ensures FirstSeen(s + [x]) == if x in s then FirstSeen(s) else FirstSeen(s) + [x]
  {
    assert (s + [x])[..|s + [x]| - 1] == s;
  }

  /** A sequence without repetitions is already in first-seen order. */
  lemma {:induction false} FirstSeenOfNoDups<T>(s: seq<T>)
    requires NoDups(s)
    ensures FirstSeen(s) == s
  {
    if s != [] {
      var init := s[..|s| - 1];
      FirstSeenOfNoDups(init);
      assert s[|s| - 1] !in init;
    }
  }

  /** Removing repetitions early does not change the first-seen order of what follows. */
  lemma {:induction false} FirstSeenAppend<T>(a: seq<T>, b: seq<T>)
    ensures FirstSeen(FirstSeen(a) + b) == FirstSeen(a + b)
    decreases |b|
  {
    if b == [] {
      assert FirstSeen(a) + b == FirstSeen(a) && a + b == a;
      FirstSeenSpec(a);
      FirstSeenOfNoDups(FirstSeen(a));
    } else {
      var init := b[..|b| - 1];
      var x := b[|b| - 1];
      FirstSeenAppend(a, init);
      FirstSeenSpec(a);
      assert FirstSeen(a) + b == (FirstSeen(a) + init) + [x];
      assert a + b == (a + init) + [x];
      FirstSeenSnoc(FirstSeen(a) + init, x);
      FirstSeenSnoc(a + init, x);
    }
  }

  /** Removing repetitions from the first two parts early does not change the first-seen order of all three. */
  lemma FirstSeenAfter<T>(a: seq<T>, b: seq<T>, c: seq<T>)
    ensures FirstSeen(FirstSeen(a + b) + c) == FirstSeen(a + (b + c))
  {
    var ab := a + b;
    FirstSeenAppend(ab, c);
    assert ab + c == a + (b + c);
  }
}

=== FILE: strings.dfy ===
/**
  The JavaScript string operations the pipeline relies on (`includes`, `endsWith`,
  `toLowerCase`, `trim`, `replace(/\s+/g, ' ')`, `substring(0, n)`, `join`), over
  `string = seq<char>`.
 */
module Strings {

  predicate StartsWith(s: string, prefix: string) {
    |prefix| <= |s| && s[..|prefix|] == prefix
  }

  /** `s.endsWith(suffix)`. */
  predicate EndsWith(s: string, suffix: string) {
    |suffix| <= |s| && s[|s| - |suffix|..] == suffix
  }

  /** `s.includes(t)`. */
  predicate Contains(s: string, t: string)
    decreases |s|
  {
    StartsWith(s, t) || (|s| > 0 && Contains(s[1..], t))
  }

  /** `t` occurs in `s` starting at offset `i`. */
  predicate OccursAt(s: string, t: string, i: int) {
    0 <= i <= |s| - |t| && s[i..i + |t|] == t
  }

  /** `Contains` holds exactly when `t` occurs at some offset of `s`. */
  lemma {:induction false} ContainsAt(s: string, t: string)
    ensures Contains(s, t) <==> exists i :: OccursAt(s, t, i)
  {
    if |s| == 0 {
      if |t| == 0 {
        assert OccursAt(s, t, 0);
      }
    } else {
      ContainsAt(s[1..], t);
      if StartsWith(s, t) {
        assert OccursAt(s, t, 0);
      }
      if Contains(s[1..], t) {
        var i :| OccursAt(s[1..], t, i);
        assert s[i + 1..i + 1 + |t|] == s[1..][i..i + |t|];
        assert OccursAt(s, t, i + 1);
      }
      if i :| OccursAt(s, t, i) {
        if i == 0 {
          assert StartsWith(s, t);
        } else {
          assert s[1..][i - 1..i - 1 + |t|] == s[i..i + |t|];
          assert OccursAt(s[1..], t, i - 1);
        }
      }
    }
  }

  /** An occurrence of an occurrence is an occurrence: `includes` is transitive. */
  lemma ContainsTransitive(s: string, m: string, t: string)
    requires Contains(s, m) && Contains(m, t)
    ensures Contains(s, t)
  {
    ContainsAt(s, m);
    ContainsAt(m, t);
    var i :| OccursAt(s, m, i);
    var j :| OccursAt(m, t, j);
    assert s[i + j..i + j + |t|] == t by {
      forall k | 0 <= k < |t|
        ensures s[i + j + k] == t[k]
      {
        assert m[j + k] == t[k];
        assert s[i..i + |m|][j + k] == s[i + j + k];
      }
    }
    assert OccursAt(s, t, i + j);
    ContainsAt(s, t);
  }

  /** A string shorter than `t` cannot include it. */
  lemma ShortNeverContains(s: string, t: string)
    requires |s| < |t|
    ensures !Contains(s, t)
  {
    ContainsAt(s, t);
  }

  /** `String.prototype.toLowerCase` restricted to the ASCII letters. */
  function Lower(s: string): (r: string)
    ensures |r| == |s|
  {
    seq(|s|, i requires 0 <= i < |s| => if 'A' <= s[i] <= 'Z' then (s[i] as int + 32) as char else s[i])
  }

  /** The characters of the `\s` class of JavaScript regular expressions, which `trim` also removes. */
  predicate IsSpace(c: char) {
    c as int in {9, 10, 11, 12, 13, 32, 0xA0, 0x1680, 0x2028, 0x2029, 0x202F, 0x205F, 0x3000, 0xFEFF}
    || 0x2000 <= c as int <= 0x200A
  }

  predicate AllSpace(s: string) {
    forall i :: 0 <= i < |s| ==> IsSpace(s[i])
  }

  /** No two adjacent characters are both whitespace. */
  predicate NoSpaceRuns(s: string) {
    forall i :: 0 <= i < |s| - 1 ==> !(IsSpace(s[i]) && IsSpace(s[i + 1]))
  }

  /** The only whitespace character present is the plain space. */
  predicate OnlyBlank(s: string) {
    forall i :: 0 <= i < |s| && IsSpace(s[i]) ==> s[i] == ' '
  }

  /** The non-whitespace characters of `s`, in order. */
  function Visible(s: string): string
  {
    if s == [] then []
    else if IsSpace(s[0]) then Visible(s[1..])
    else [s[0]] + Visible(s[1..])
  }

  lemma {:induction false} VisibleAppend(a: string, b: string)
    ensures Visible(a + b) == Visible(a) + Visible(b)
  {
    if a != [] {
      assert (a + b)[1..] == a[1..] + b;
      VisibleAppend(a[1..], b);
    } else {
      assert a + b == b;
    }
  }

  lemma {:induction false} VisibleOfSpaces(s: string)
    requires AllSpace(s)
    ensures Visible(s) == []
  {
    if s != [] {
      VisibleOfSpaces(s[1..]);
    }
  }

  /** `trimStart`: the longest suffix of `s` not starting with whitespace. */
  function TrimStart(s: string): (r: string)
    ensures |r| <= |s| && r == s[|s| - |r|..]
    ensures AllSpace(s[..|s| - |r|])
    ensures r == [] || !IsSpace(r[0])
  {
    if s != [] && IsSpace(s[0]) then TrimStart(s[1..]) else s
  }

  /** `trimEnd`: the longest prefix of `s` not ending with whitespace. */
  function TrimEnd(s: string): (r: string)
    ensures r <= s
    ensures AllSpace(s[|r|..])
    ensures r == [] || !IsSpace(r[|r| - 1])
  {
    if s != [] && IsSpace(s[|s| - 1]) then TrimEnd(s[..|s| - 1]) else s
  }

  /** The number of whitespace characters `trim` removes from the front of `s`. */
  function TrimCut(s: string): nat {
    |s| - |TrimStart(s)|
  }

  /** `String.prototype.trim`. */
  function Trim(s: string): string {
    TrimEnd(TrimStart(s))
  }

  /**
    `trim` removes whitespace at both ends and nothing else: the result is a slice
    `s[i..j]` of `s` surrounded only by whitespace, it neither starts nor ends with
    whitespace, and it keeps every visible character.
   */
  lemma TrimSpec(s: string)
    ensures TrimCut(s) + |Trim(s)| <= |s|
    ensures Trim(s) == s[TrimCut(s)..TrimCut(s) + |Trim(s)|]
    ensures AllSpace(s[..TrimCut(s)]) && AllSpace(s[TrimCut(s) + |Trim(s)|..])
    ensures Trim(s) == [] || (!IsSpace(Trim(s)[0]) && !IsSpace(Trim(s)[|Trim(s)| - 1]))
    ensures Visible(Trim(s)) == Visible(s)
  {
    TrimSlice(s);
    TrimVisible(s, TrimCut(s), TrimStart(s), Trim(s));
  }

  lemma TrimSlice(s: string)
    ensures TrimCut(s) + |Trim(s)| <= |s|
    ensures TrimStart(s) == s[TrimCut(s)..] && Trim(s) <= TrimStart(s)
    ensures Trim(s) == s[TrimCut(s)..TrimCut(s) + |Trim(s)|]
    ensures AllSpace(s[..TrimCut(s)]) && AllSpace(TrimStart(s)[|Trim(s)|..])
    ensures AllSpace(s[TrimCut(s) + |Trim(s)|..])
  {
    TrimSliceBounds(s);
    TrimSliceSpaces(s);
  }

  /** The trimmed text does not start with whitespace. */
  lemma TrimFirst(s: string)
    ensures Trim(s) == [] || !IsSpace(Trim(s)[0])
  {
    var t := TrimStart(s);
    if Trim(s) != [] {
      assert Trim(s)[0] == t[0];
    }
  }

  lemma TrimSliceBounds(s: string)
    ensures TrimCut(s) + |Trim(s)| <= |s|
    ensures TrimStart(s) == s[TrimCut(s)..] && Trim(s) <= TrimStart(s)
    ensures Trim(s) == s[TrimCut(s)..TrimCut(s) + |Trim(s)|]
  {
    SliceOfSuffix(s, TrimCut(s), TrimStart(s), Trim(s));
  }

  lemma TrimSliceSpaces(s: string)
    ensures AllSpace(s[..TrimCut(s)]) && AllSpace(TrimStart(s)[|Trim(s)|..])
    ensures AllSpace(s[TrimCut(s) + |Trim(s)|..])
  {
    var t := TrimStart(s);
    SliceOfSuffix(s, |s| - |t|, t, TrimEnd(t));
  }

  /** A prefix `r` of the suffix `t == s[i..]` is the slice of `s` at `i`, followed by the rest of `t`. */
  lemma SliceOfSuffix(s: string, i: nat, t: string, r: string)
    requires i <= |s| && t == s[i..] && r <= t
    ensures i + |r| <= |s| && s[i..i + |r|] == r && s[i + |r|..] == t[|r|..]
  {
  }

  lemma TrimVisible(s: string, i: nat, t: string, r: string)
    requires i <= |s| && t == s[i..] && AllSpace(s[..i])
    requires r <= t && AllSpace(t[|r|..])
    ensures Visible(r) == Visible(s)
  {
    assert s == s[..i] + t;
    VisibleAppend(s[..i], t);
    VisibleOfSpaces(s[..i]);
    assert t == r + t[|r|..];
    VisibleAppend(r, t[|r|..]);
    VisibleOfSpaces(t[|r|..]);
  }

  /**
    `s.replace(/\s+/g, ' ')`: every maximal run of whitespace becomes one plain space.
    The result has no whitespace other than single spaces, and starts with whitespace
    exactly when `s` does.
   */
  function Collapse(s: string): (r: string)
    ensures |r| <= |s|
    ensures OnlyBlank(r) && NoSpaceRuns(r)
    ensures s != [] ==> r != [] && (IsSpace(r[0]) <==> IsSpace(s[0]))
    decreases |s|
  {
    if s == [] then []
    else if IsSpace(s[0]) then [' '] + Collapse(TrimStart(s))
    else [s[0]] + Collapse(s[1..])
  }

  /** Collapsing whitespace never loses or reorders a visible character. */
  lemma {:induction false} CollapseKeepsVisible(s: string)
    ensures Visible(Collapse(s)) == Visible(s)
    decreases |s|
  {
    if s != [] {
      if IsSpace(s[0]) {
        var t := TrimStart(s);
        CollapseKeepsVisible(t);
        VisibleAppend([' '], Collapse(t));
        assert s == s[..|s| - |t|] + t;
        VisibleAppend(s[..|s| - |t|], t);
        VisibleOfSpaces(s[..|s| - |t|]);
      } else {
        CollapseKeepsVisible(s[1..]);
        VisibleAppend([s[0]], Collapse(s[1..]));
      }
    }
  }

  /** A slice of a collapsed string is still collapsed. */
  lemma SliceShape(c: string, i: nat, r: string)
    requires OnlyBlank(c) && NoSpaceRuns(c)
    requires i + |r| <= |c| && r <= c[i..]
    ensures OnlyBlank(r) && NoSpaceRuns(r)
  {
    assert forall k :: 0 <= k < |r| ==> r[k] == c[i + k];
  }

  // ---------------------------------------------------------------- words

  /** The leading run of non-whitespace characters of `s`. */
  function Word(s: string): (w: string)
    ensures w <= s
    ensures forall i :: 0 <= i < |w| ==> !IsSpace(w[i])
    ensures |w| < |s| ==> IsSpace(s[|w|])
    ensures s != [] && !IsSpace(s[0]) ==> w != []
  {
    if s == [] || IsSpace(s[0]) then [] else [s[0]] + Word(s[1..])
  }

  /** The words of `s`: its maximal runs of non-whitespace characters, in order. */
  function Words(s: string): seq<string>
    decreases |s|
  {
    if s == [] then []
    else if IsSpace(s[0]) then Words(s[1..])
    else [Word(s)] + Words(s[|Word(s)|..])
  }

  /** Whitespace in front of a text adds no word. */
  lemma {:induction false} WordsAfterSpaces(sp: string, x: string)
    requires AllSpace(sp)
    ensures Words(sp + x) == Words(x)
  {
    if sp == [] {
      assert sp + x == x;
    } else {
      assert (sp + x)[1..] == sp[1..] + x;
      WordsAfterSpaces(sp[1..], x);
    }
  }

  /** Whitespace behind a text adds no word. */
  lemma {:induction false} WordsBeforeSpaces(x: string, sp: string)
    requires AllSpace(sp)
    ensures Words(x + sp) == Words(x)
    decreases |x|
  {
    if x == [] {
      assert x + sp == sp + [];
      WordsAfterSpaces(sp, []);
    } else if IsSpace(x[0]) {
      assert (x + sp)[1..] == x[1..] + sp;
      WordsBeforeSpaces(x[1..], sp);
    } else {
      WordBeforeSpaces(x, sp);
      var w := Word(x);
      assert (x + sp)[|w|..] == x[|w|..] + sp;
      WordsBeforeSpaces(x[|w|..], sp);
    }
  }

  lemma {:induction false} WordBeforeSpaces(x: string, sp: string)
    requires AllSpace(sp)
    ensures Word(x + sp) == Word(x)
  {
    if x == [] {
      assert x + sp == sp;
    } else if !IsSpace(x[0]) {
      assert (x + sp)[1..] == x[1..] + sp;
      WordBeforeSpaces(x[1..], sp);
    }
  }

  /** A visible character in front of `x` starts a new word, or joins the first word of `x`. */
  lemma WordsCons(c: char, x: string)
    requires !IsSpace(c)
    ensures Words([c] + x) ==
      if x == [] || IsSpace(x[0]) then [[c]] + Words(x)
      else [[c] + Words(x)[0]] + Words(x)[1..]
  {
    var w := Word(x);
    WordsConsUnfold(c, x, w, x[|w|..]);
    if x != [] && !IsSpace(x[0]) {
      WordsUnfold(x);
    } else {
      assert w == [];
      assert x[|w|..] == x;
      assert [c] + w == [c];
    }
  }

  /** The words of a text that starts with a visible character: its first word, then the words after it. */
  lemma WordsUnfold(s: string)
    requires s != [] && !IsSpace(s[0])
    ensures Words(s) == [Word(s)] + Words(s[|Word(s)|..])
  {
  }

  lemma WordsConsUnfold(c: char, x: string, w: string, after: string)
    requires !IsSpace(c) && w == Word(x) && after == x[|w|..]
    ensures Words([c] + x) == [[c] + w] + Words(after)
  {
    var cx := [c] + x;
    WordCons(c, x);
    assert cx[|w| + 1..] == after;
    WordsUnfold(cx);
  }

  lemma WordCons(c: char, x: string)
    requires !IsSpace(c)
    ensures Word([c] + x) == [c] + Word(x)
  {
    assert ([c] + x)[1..] == x;
  }

  /** Collapsing whitespace keeps exactly the words of the text. */
  lemma {:induction false} CollapseWords(s: string)
    ensures Words(Collapse(s)) == Words(s)
    decreases |s|
  {
    if s != [] {
      if IsSpace(s[0]) {
        var t := TrimStart(s);
        var ct := Collapse(t);
        CollapseWords(t);
        assert Collapse(s) == [' '] + ct;
        assert ([' '] + ct)[1..] == ct;
        WordsOfSuffix(s, |s| - |t|, t);
      } else {
        var x := s[1..];
        var cx := Collapse(x);
        CollapseWords(x);
        assert Collapse(s) == [s[0]] + cx;
        assert x == [] <==> cx == [];
        assert x != [] ==> (IsSpace(cx[0]) <==> IsSpace(x[0]));
        WordsCons(s[0], cx);
        WordsCons(s[0], x);
        assert s == [s[0]] + x;
      }
    }
  }

  /** Trimming removes no word. */
  lemma TrimWords(s: string)
    ensures Words(Trim(s)) == Words(s)
  {
    TrimStartWords(s);
    TrimEndWords(TrimStart(s));
  }

  lemma TrimStartWords(s: string)
    ensures Words(TrimStart(s)) == Words(s)
  {
    var t := TrimStart(s);
    WordsOfSuffix(s, |s| - |t|, t);
  }

  lemma WordsOfSuffix(s: string, k: nat, t: string)
    requires k <= |s| && t == s[k..] && AllSpace(s[..k])
    ensures Words(t) == Words(s)
  {
    assert s == s[..k] + t;
    WordsAfterSpaces(s[..k], t);
  }

  lemma TrimEndWords(t: string)
    ensures Words(TrimEnd(t)) == Words(t)
  {
    var r := TrimEnd(t);
    assert t == r + t[|r|..];
    WordsBeforeSpaces(r, t[|r|..]);
  }

  /** A text with single blanks between words and none at its ends is its words joined by blanks. */
  lemma {:induction false} NormalJoin(r: string)
    requires OnlyBlank(r) && NoSpaceRuns(r)
    requires r == [] || (!IsSpace(r[0]) && !IsSpace(r[|r| - 1]))
    ensures r == Join(Words(r), " ")
    decreases |r|
  {
    if r != [] {
      var w := Word(r);
      if |w| < |r| {
        var rest := r[|w| + 1..];
        NormalTail(r, w, rest);
        NormalJoin(rest);
        WordsAfterBlank(r, w, rest);
        JoinCons(w, Words(rest));
      } else {
        WordsUnfold(r);
        assert r[|w|..] == [];
      }
    }
  }

  /** What follows the first word and its blank is again a normalized text, and the blank splits `r`. */
  lemma NormalTail(r: string, w: string, rest: string)
    requires OnlyBlank(r) && NoSpaceRuns(r)
    requires r != [] && !IsSpace(r[0]) && !IsSpace(r[|r| - 1])
    requires w == Word(r) && |w| < |r| && rest == r[|w| + 1..]
    ensures |w| + 1 < |r| && r == w + " " + rest
    ensures OnlyBlank(rest) && NoSpaceRuns(rest)
    ensures !IsSpace(rest[0]) && !IsSpace(rest[|rest| - 1])
  {
    NormalAfterBlank(r, |w|, rest);
    SplitAtBlank(r, w, rest);
  }

  lemma NormalAfterBlank(r: string, k: nat, rest: string)
    requires OnlyBlank(r) && NoSpaceRuns(r)
    requires k < |r| && IsSpace(r[k]) && !IsSpace(r[|r| - 1]) && rest == r[k + 1..]
    ensures k + 1 < |r| && r[k] == ' '
    ensures OnlyBlank(rest) && NoSpaceRuns(rest)
    ensures !IsSpace(rest[0]) && !IsSpace(rest[|rest| - 1])
  {
    assert rest[0] == r[k + 1];
    SliceShape(r, k + 1, rest);
  }

  lemma SplitAtBlank(r: string, w: string, rest: string)
    requires w <= r && |w| < |r| && r[|w|] == ' ' && rest == r[|w| + 1..]
    ensures r == w + " " + rest
  {
    assert r == r[..|w|] + [r[|w|]] + rest;
  }

  /** A first word followed by a blank: the words are that word, then the words after the blank. */
  lemma WordsAfterBlank(r: string, w: string, rest: string)
    requires r != [] && !IsSpace(r[0]) && w == Word(r)
    requires |w| + 1 < |r| && rest == r[|w| + 1..] && !IsSpace(rest[0])
    ensures Words(r) == [w] + Words(rest) && Words(rest) != []
  {
    WordsUnfold(r);
    assert r[|w|..][1..] == rest;
  }

  lemma JoinCons(w: string, ws: seq<string>)
    requires ws != []
    ensures Join([w] + ws, " ") == w + " " + Join(ws, " ")
  {
    assert ([w] + ws)[1..] == ws;
  }

  /**
    `s.replace(/\s+/g, ' ').trim()` is the words of `s` joined by single blanks: the
    reference reading of what collapsing and trimming do together.
   */
  lemma CollapseTrimJoin(s: string)
    ensures Trim(Collapse(s)) == Join(Words(s), " ")
  {
    var c := Collapse(s);
    var t := Trim(c);
    TrimSpec(c);
    SliceShape(c, TrimCut(c), t);
    NormalJoin(t);
    TrimWords(c);
    CollapseWords(s);
  }

  // ---------------------------------------------------------------- UTF-16 lengths

  /** The UTF-16 code units a character occupies: two outside the Basic Multilingual Plane. */
  function Units(c: char): nat {
    if c as int > 0xFFFF then 2 else 1
  }

  /** `s.length` in JavaScript, which counts UTF-16 code units rather than characters. */
  function Length(s: string): nat
  {
    if s == [] then 0 else Units(s[0]) + Length(s[1..])
  }

  /** Every character of `s` lies in the Basic Multilingual Plane. */
  predicate InBmp(s: string) {
    forall i :: 0 <= i < |s| ==> s[i] as int <= 0xFFFF
  }

  lemma {:induction false} LengthAppend(a: string, b: string)
    ensures Length(a + b) == Length(a) + Length(b)
  {
    if a != [] {
      assert (a + b)[1..] == a[1..] + b;
      LengthAppend(a[1..], b);
    } else {
      assert a + b == b;
    }
  }

  /** A string has at least one and at most two code units per character, exactly one each in the BMP. */
  lemma {:induction false} LengthBounds(s: string)
    ensures |s| <= Length(s) <= 2 * |s|
    ensures InBmp(s) ==> Length(s) == |s|
  {
    if s != [] {
      LengthBounds(s[1..]);
      assert InBmp(s) ==> InBmp(s[1..]) && s[0] as int <= 0xFFFF by {
        if InBmp(s) {
          forall i | 0 <= i < |s[1..]| ensures s[1..][i] as int <= 0xFFFF {
            assert s[1..][i] == s[i + 1];
          }
        }
      }
    }
  }

  /**
    `s.substring(0, n)` for a non-negative `n`: the longest prefix of `s` that fits in
    `n` UTF-16 code units. The character after it, if any, does not fit.
   */
  function Truncate(s: string, n: nat): (r: string)
    ensures r <= s
    ensures Length(r) <= n
    ensures Length(s) <= n ==> r == s
    ensures r != s ==> Length(r) + Units(s[|r|]) > n
  {
    if s == [] || Units(s[0]) > n then []
    else
      var rest := Truncate(s[1..], n - Units(s[0]));
      assert ([s[0]] + rest)[1..] == rest;
      [s[0]] + rest
  }

  /** On text without surrogate pairs, code units are characters and `substring` is a plain slice. */
  lemma {:induction false} TruncateBmp(s: string, n: nat)
    requires InBmp(s)
    ensures Truncate(s, n) == if |s| <= n then s else s[..n]
  {
    var r := Truncate(s, n);
    LengthBounds(s);
    LengthBounds(r);
    if r != s {
      assert InBmp(r) by {
        forall i | 0 <= i < |r| ensures r[i] as int <= 0xFFFF {
          assert r[i] == s[i];
        }
      }
      assert Units(s[|r|]) == 1;
    }
  }

  /** A piece of a string is no longer than the string, in code units. */
  lemma SliceLength(s: string, i: nat, j: nat)
    requires i <= j <= |s|
    ensures Length(s[i..j]) <= Length(s)
  {
    assert s == s[..i] + s[i..j] + s[j..];
    LengthAppend(s[..i] + s[i..j], s[j..]);
    LengthAppend(s[..i], s[i..j]);
  }

  /** Trimming never lengthens a string. */
  lemma TrimLength(s: string)
    ensures Length(Trim(s)) <= Length(s)
  {
    var t := TrimStart(s);
    var k := |s| - |t|;
    assert s == s[..k] + t;
    LengthAppend(s[..k], t);
    TrimEndLength(t);
  }

  lemma TrimEndLength(t: string)
    ensures Length(TrimEnd(t)) <= Length(t)
  {
    var r := TrimEnd(t);
    assert t == r + t[|r|..];
    LengthAppend(r, t[|r|..]);
  }

  /** Collapsing whitespace never lengthens a string: a run of whitespace becomes one blank. */
  lemma {:induction false} CollapseLength(s: string)
    ensures Length(Collapse(s)) <= Length(s)
    decreases |s|
  {
    if s != [] {
      if IsSpace(s[0]) {
        var t := TrimStart(s);
        CollapseLength(t);
        LengthAppend([' '], Collapse(t));
        assert s == s[..|s| - |t|] + t;
        LengthAppend(s[..|s| - |t|], t);
        LengthBounds(s[..|s| - |t|]);
      } else {
        CollapseLength(s[1..]);
        LengthAppend([s[0]], Collapse(s[1..]));
      }
    }
  }

  /** `parts.join(sep)`. */
  function Join(parts: seq<string>, sep: string): string
  {
    if parts == [] then ""
    else if |parts| == 1 then parts[0]
    else parts[0] + sep + Join(parts[1..], sep)
  }

  /** The concatenation of `parts`, which is what cheerio's `.text()` returns for a selection. */
  function Concat(parts: seq<string>): string
  {
    if parts == [] then "" else parts[0] + Concat(parts[1..])
  }
}

=== FILE: wrappers.dfy ===
/** Failure-carrying datatypes shared by every module of the model. */
module Wrappers {

  /** A value that may be absent: JavaScript's `null`/`undefined`, or a call that threw. */
  datatype Option<+T> = None | Some(value: T) {

    /** The carried value, or `default` when absent. */
    function GetOr(default: T): T {
      match this
      case Some(v) => v
      case None => default
    }
  }

  /** The settled outcome of a JavaScript call that may throw: its value, or the thrown error's message. */
  datatype Result<+T> = Done(value: T) | Thrown(message: string)
}
